=== FILE: README.md ===
# PDF outline extractor — a Dafny model of the heading pipeline

The PDF outline extractor turns a PDF into a title and a list of headings.
Each heading has a level (H1, H2, H3), a text and a page number. The decision
logic sits in `utils.py`, and this project models it over abstract page
content: each page is a sequence of text containers with a bounding box and
character records, standing in for the PDF layout engine's output. The
pieces are:

- **Text repair** (`fix_text_spacing`, module `Text`): two literal substitution
  tables around a chain of regular-expression rewrites. Each `re.sub` is a
  leftmost, non-overlapping rewrite over `seq<char>`. The tables are a
  `Repairs` parameter applied with `str.replace` semantics.
- **Ingestion** (module `Ingest`):
  - the fallback `extract_simple_text`, which joins containers, repairs the
    text, splits it on runs of `.!?`, keeps stripped sentences longer than five
    characters, and stops after page 50;
  - the primary `extract_text_with_layout`, modelled exactly as indented in the
    source, and again as evidently intended; in the intended version the
    per-container code receives `fix_text_spacing` (with the document's tables)
    as a function parameter `fix`;
  - `calculate_position` and `extract_font_info`.
- **Classification** (`classify_heading_level`, module `Classifier`): the ordered
  H1/H2/H3 condition chain.
- **Assembly** (`analyze_headings`, module `Headings`): font statistics, the
  length filter, and Python's stable sort on `(page, -font_size, position == "top")`,
  modelled as a stable insertion sort.
- **Title and envelope** (`extract_title`, `extract_outline`, module `Outline`).
  The ten-second wall-clock check is the boolean parameter `overBudget`.

Where the code and a natural reading of its purpose differ, the model follows
the code:

- A document of more than 50 pages is not an error. The primary path's
  `ValueError` is caught at utils.py:108, and the fallback silently reads only
  the first 50 pages (`Outline.PageLimitFallsBack`).
- The length filter keeps texts of 2 to 200 characters, both ends included
  (utils.py:616).
- On equal page and font size, the sort puts headings at the top of the page
  after the others, because the key's last component `position == "top"` sorts
  `False` before `True` (utils.py:632).
- The primary path never produces a fragment of its own (see Findings). The
  outline of every document is therefore the outline of the fallback's
  fragments: each heading is an H1 at size 12 (`Outline.FallbackOutline`).

## Model

| member | source | states |
|---|---|---|
| Text.Replace | utils.py:333-334 | `str.replace`: a non-empty target that differs from its replacement changes the text exactly when it occurs in it; a replacement equal to the target changes nothing; lengths move with the relative lengths of target and replacement |
| Text.ReplaceAll | utils.py:333-334 | every occurrence of a non-empty target is replaced, leftmost first: the result is the pieces between the occurrences joined by the replacement, no piece contains the target, each piece but the last ends exactly where the first occurrence after it starts, and joining the pieces with the target gives back the text |
| Text.ReplaceLeftmost | utils.py:333-334 | overlapping occurrences are taken from the left: `"aaa".replace("aa", "X")` is `"Xa"` |
| Text.ApplyTable | utils.py:333-334 | a one-entry table performs that entry's `text.replace(wrong, right)`; a table none of whose non-empty targets occurs in the text leaves it unchanged |
| Text.ApplyTableConcat | utils.py:333-334 | the table loop works entry by entry: applying two tables in turn is applying their concatenation |
| Text.SeparatePairs | utils.py:338-342 | the `(P)(Q)` → `\1 \2` rewrite never shortens the text, keeps its first character, changes the text exactly when some P-character is directly followed by a Q-character, and then lengthens it |
| Text.SeparatePairsRemovesPairs | utils.py:338-342 | after the rewrite, no P-character is directly followed by a Q-character, for disjoint classes that exclude the space |
| Text.SeparatePairsNonSpace | utils.py:338-342 | the rewrite only inserts spaces: the non-whitespace characters stay the same, in order |
| Text.SeparatePairsKeeps | utils.py:338-342 | an absent A-then-B adjacency stays absent when the inserted space cannot form one with its new neighbours |
| Text.CollapseSpace | utils.py:512 | `\s+` → `' '` leaves only plain spaces, never two whitespace characters in a row, and never lengthens the text |
| Text.CollapseSpaceSplice | utils.py:512 | each maximal whitespace run becomes one space where it stands: collapsing text around a whole run is collapsing each side and putting one space between them |
| Text.CollapseSpaceFixpoint | utils.py:512 | collapsing leaves the text unchanged exactly when it has only plain spaces and no two adjacent whitespace characters |
| Text.CollapseSpaceNonSpace | utils.py:512 | collapsing keeps the non-whitespace characters, in order |
| Text.DropSpaceBeforePunct | utils.py:513 | `\s+([.,!?])` → `\1` leaves no whitespace directly before `.,!?` and never lengthens the text |
| Text.DropSpaceBeforePunctSplice | utils.py:513 | a whole whitespace run disappears when `.,!?` follows it and is kept unchanged otherwise, and the text on either side is treated on its own |
| Text.DropSpaceBeforePunctFixpoint | utils.py:513 | the deletion leaves the text unchanged exactly when no whitespace precedes `.,!?` |
| Text.DropSpaceBeforePunctNonSpace | utils.py:513 | the deletion removes whitespace only |
| Text.Strip | utils.py:517 | `str.strip()`: no leading or trailing whitespace, never longer, and unchanged exactly when the text was already stripped |
| Text.StripSlice | utils.py:517 | the stripped text is a slice of the original with only whitespace before and after it |
| Text.StripChars | utils.py:517 | stripping introduces no character |
| Text.FixTextSpacing | utils.py:170-519 | for any tables, the repaired text is stripped, its only whitespace is single spaces between non-spaces, no whitespace precedes `.,!?`, and no `.,!?` is directly followed by a letter |
| Text.FixWithoutTables | utils.py:338-342 | with both tables empty, the repaired text also has no lower-then-upper, letter-then-digit or digit-then-letter adjacency, and its non-whitespace characters are those of the input, in order |
| Text.FixIdempotent | utils.py:338-517 | with both tables empty, repairing a repaired text changes nothing |
| Ingest.SplitSentences | utils.py:147 | `re.split(r'[.!?]+')` gives one more piece than there are runs of `.!?`; no piece holds `.!?`; joined, the pieces are the text without `.!?`; a text without `.!?` is a single piece |
| Ingest.SplitAtRun | utils.py:147 | a terminator-free piece, then a whole run of `.!?`, then a text not starting with one, splits into that piece followed by the pieces of the text after the run; with the single-piece case this fixes every split point |
| Ingest.SentenceFragments | utils.py:148-163 | at most one fragment per sentence; a fragment is in the result exactly when it is the fallback fragment, on the given page, of a stripped sentence longer than five characters; each is stripped, free of `.!?`, size 12, not bold, mid-page |
| Ingest.SentenceFragmentsConcat | utils.py:148-163 | sentences are turned into fragments one at a time, in order: the fragments of two runs of sentences are those of the first followed by those of the second |
| Ingest.PageSentences | utils.py:139-163 | a page without text gives nothing; otherwise a fragment is in the result exactly when it is the fallback fragment, on that page, of a stripped piece longer than five characters of the repaired page text; there is at most one per piece, and they come in piece order (cutting the pieces anywhere cuts the fragments at the same place) |
| Ingest.PageLoopShape | utils.py:128-163 | for any per-page step whose fragments carry the page number they were given, the fallback's page loop numbers pages from the start page, never past page 50 or the last page, keeps every property the step guarantees, and emits fragments in page order |
| Ingest.PageLoopTruncate | utils.py:128-130 | the fallback's page loop stops at page 50: its result is that of the pages up to page 50 |
| Ingest.ExtractSimpleText | utils.py:121-167 | every fallback fragment is sentence-shaped, on a page between 1 and 50 that exists, and the fragments are in page order |
| Ingest.PageLoopCovers | utils.py:128-163 | for any per-page step whose fragments carry their page number, every fragment of every page up to page 50 is in the loop's result, and every fragment of the result comes from the page its number names |
| Ingest.SimpleTextCovers | utils.py:128-163 | the fallback keeps every fragment of each of the first 50 pages, and each fragment it returns is one of the fragments of the page its number names |
| Ingest.PageLoopConcat | utils.py:128-163 | the page loop works page by page: looping over two runs of pages gives the first run's fragments, then the second run's under the page numbers that follow |
| Ingest.SimpleTextConcat | utils.py:128-163 | the fallback's fragments are those of the earlier pages, then each page within the limit contributes exactly its sentence fragments as one block, in sentence order, then those of the later pages |
| Ingest.OnePageSentence | utils.py:128-163 | a one-page document whose repaired text has more than five characters and no `.!?` yields exactly that text as its one fallback fragment, on page 1 |
| Ingest.SimpleTextTruncates | utils.py:128-130 | a document of more than 50 pages gives the same fallback fragments as its first 50 pages |
| Ingest.LayoutLoop | utils.py:80-83 | the primary page loop raises the page-limit error, with its message, exactly when the document reaches a page past 50; otherwise every fragment any page's step yields is in the result, which is empty exactly when every step is |
| Ingest.LayoutAsWritten | utils.py:80-107 | as indented, the primary page loop adds no fragment, and raises the page-limit error exactly when the document has a 51st page |
| Ingest.ExtractWithLayout | utils.py:66-118 | the primary ingestion returns exactly the fallback's fragments, for every document |
| Ingest.CalculatePosition | utils.py:555-586 | middle without a page height; otherwise top exactly above 70% of the height and bottom exactly at or below 30% |
| Ingest.PositionMonotone | utils.py:576-583 | a container higher on the page never gets a lower bucket |
| Ingest.FontInfoFacts | utils.py:522-552 | the size bounds every character's size and is some character's size or 0; bold and italic hold exactly when some character's font name contains one of the keywords |
| Ingest.BlockFragmentText | utils.py:88-91 | with the document's tables, a container's fragment text is the repaired text: stripped, single-spaced, with no whitespace before `.,!?` |
| Ingest.BlockFragmentLayout | utils.py:88-107 | a container of real text above 70% of the page height with a character over 12 points becomes a top-of-page fragment over 12 points |
| Ingest.PageBlocks | utils.py:86-107 | every qualifying container of a page yields its fragment, every fragment comes from a qualifying container, and the page yields nothing exactly when no container qualifies |
| Ingest.LayoutPages | utils.py:80-107 | with the per-container code reachable: the page-limit error exactly when a 51st page exists; otherwise every qualifying container's fragment, with its page number, is in the result, which is empty exactly when no container qualifies |
| Ingest.ExtractWithLayoutIntended | utils.py:66-118 | with the per-container code reachable: a document over 50 pages or without a qualifying container gets the fallback; otherwise each qualifying container's own fragment is in the result |
| Ingest.IntendedKeepsBlock | utils.py:80-107 | under the intended reading, every container of real text on any page of a document of at most 50 pages has its fragment, carrying that page's number, in the result |
| Ingest.LayoutIgnoredAsWritten | utils.py:82-107 | on a one-page document, a container of real text near the top with a character over 12 points becomes a top-of-page fragment over 12 points that the intended reading returns and the code as written does not |
| Classifier.Classify | utils.py:654-677 | in both directions, the first level whose tests hold wins: H1 exactly when the size exceeds 0.8 of the largest, or 0.6 of it bold at the top, or the text starts with a chapter keyword, or it is short upper-case text; H2 exactly when no H1 test holds and the size exceeds 0.5 of the largest, or 0.4 of it bold, or the text is numbered or short with an early digit; H3 exactly when neither holds and the size exceeds 0.3 of the largest, or 0.25 of it bold, or the text starts with a bullet, or it is short and above the mean size; otherwise no level |
| Classifier.ClassifyMonotone | utils.py:654-675 | raising the font size with everything else fixed never lowers the level (none < H3 < H2 < H1) |
| Classifier.HalfSizeOverviewIsH3 | utils.py:664-675 | "Overview" at half the largest size, not bold, mid-page, is an H3 |
| Classifier.BoldMediumIsH2 | utils.py:664-675 | "overview" at 9 points of a largest 20 is an H2 when bold and an H3 when not |
| Headings.SizeStats | utils.py:602-607 | no statistics exactly when no size is positive; otherwise the largest is some fragment's size and bounds all sizes, and the mean is the sum of the positive sizes over their count and lies in (0, largest] |
| Headings.SizeStatsMean | utils.py:602-607 | the mean equals the largest size exactly when every positive size is the largest |
| Headings.ClassifyAll | utils.py:609-630 | at most one heading per fragment; every heading comes from an input fragment, and every fragment that qualifies gives its heading |
| Headings.ClassifyAllConcat | utils.py:609-630 | the classifying loop works fragment by fragment: classifying a concatenation is concatenating the classifications |
| Headings.SortHeadings | utils.py:632 | the result is sorted on the key, is a permutation of the input, and lists the headings of each key in their input order (stability) |
| Headings.SortSortedIsIdentity | utils.py:632 | sorting a list already in key order leaves it unchanged |
| Headings.SortedMeans | utils.py:632 | in key order, pages ascend; on one page sizes descend; at equal page and size, top-of-page headings come last |
| Headings.Analyze | utils.py:589-634 | nothing when no size is positive; otherwise the output is sorted, each heading has 2 to 200 characters and comes from an input fragment through the classifier, every qualifying fragment's heading is in the output, the output is a permutation of the classified list, and headings with equal keys keep their classification order |
| Headings.MaxSizeIsH1 | utils.py:606-661 | a fragment of 2 to 200 characters at the document's largest size is among the headings as an H1 |
| Outline.FirstOfLevel | utils.py:691-699 | the text of the first heading of a level, absent exactly when no heading has that level |
| Outline.FirstSignificant | utils.py:701-706 | the text of the first fragment of 4 to 99 characters at the top of a page with a positive size, absent exactly when there is none |
| Outline.ExtractTitle | utils.py:680-708 | the title is the first H1, else the first H2, else the first significant fragment, else "Untitled Document" |
| Outline.ProjectConcat | utils.py:40-46 | the outline loop works heading by heading: the entries of a concatenation are the concatenated entries |
| Outline.ExtractOutline | utils.py:17-63 | the error envelope exactly when the time budget was exceeded, with its fixed title, empty outline and message; otherwise the outline of the fallback's fragments |
| Outline.LargestIsEntry | utils.py:40-46 | a fragment of 2 to 200 characters at the largest positive size gives an H1 outline entry with its text and page |
| Outline.IntendedLargestIsH1 | utils.py:17-118 | under the intended ingestion, within budget, a container of real text in a document of at most 50 pages whose fragment has 2 to 200 characters and the largest positive size is an H1 entry of the outline, with its repaired text and page number |
| Outline.FallbackAnalyze | utils.py:602-632 | on the fallback's fragments, the headings are one H1 per fragment of at most 200 characters, in fragment order |
| Outline.FallbackOutline | utils.py:17-63 | within budget, every document's outline is the fallback's sentences of at most 200 characters, each an H1, in page order; the title is the first entry's text, or "Untitled Document" when there is none |
| Outline.OneFragmentOutline | utils.py:602-708 | one fallback fragment of at most 200 characters gives an outline of that one H1 entry, and its text is the title |
| Outline.OnePageOutline | utils.py:17-167 | within budget, a one-page document whose repaired text is a sentence of 6 to 200 characters without `.!?` gets that sentence as its title and as its one H1 outline entry |
| Outline.EmptyDocument | utils.py:680-708 | a document with no fallback sentence gets "Untitled Document" and an empty outline, with no error |
| Outline.PageLimitFallsBack | utils.py:80-83 | a document over 50 pages gets no error: its outline is that of its first 50 pages |
| Outline.SingleHeadingScenario | utils.py:602-708 | a bold "1. Introduction" at the largest size at the top of page 1 is the only outline entry, as H1, and the title |

## Left out

- PDF parsing (pdfminer's `extract_pages`, `LTTextContainer`, `LTChar`) is replaced by the `Page`, `Block` and `CharRecord` datatypes; containers that are not text containers do not appear.
- The wall clock (utils.py:27, 49-50) is the parameter `overBudget`; exceptions from the PDF engine are not modelled, so the error envelope arises only from the time budget.
- The contents of the two substitution tables (utils.py:177-330, 345-505) are not transcribed; the tables are the `Repairs` parameter.
- Prints and exception plumbing (utils.py:108-111, 164-166, 584) are left out; the page-limit exception is the `Failure` variant of `Result`.
- Floating point is modelled as `real`, so threshold comparisons are exact; results at equality boundaries can differ from IEEE doubles.
- Unicode character classes are ASCII: one whitespace predicate (space, tab, newline, carriage return, vertical tab, form feed) serves `\s`, `str.strip()` and the stripping of sentences; `\d` and `str.isdigit()` are `0`-`9`; `str.isupper()` is "some `A`-`Z` and no `a`-`z`"; `str.lower()` lowers `A`-`Z` only.
- Classifier.Classify: requires a positive largest font size. The guard at utils.py:654 covers a zero largest size, but the division at utils.py:674 does not, and the only caller passes a positive one.
- Text.ReplaceAll: characterises only a non-empty target (`str.split` rejects an empty separator); the empty-target case of `Text.Replace` is stated by its length clause only, and the repair tables never hold an empty key.
- `Block.chars` stands for the container's direct children that are character records, as utils.py:538-539 iterates them. pdfminer's text boxes hold lines rather than characters, so on real layouts this list can be empty and the size 0; the model does not decide which.
- `calculate_position`'s `mediabox` branch (utils.py:570-571) is folded into the optional page height.
- main.py (directory scan, JSON writing, printing) is I/O and is not part of this model.

## Findings

| source | as written | input that shows it | evidently intended | confidence | as-written member | corrected member |
|---|---|---|---|---|---|---|
| utils.py:82-107 | the per-container code is indented under `if page_num > 50:` after the `raise`, so it never runs; every document falls back to `extract_simple_text`, losing sizes, weights and positions | a one-page PDF whose only container reads "Introduction" in 20-point bold near the top: it becomes a size-12, non-bold, mid-page fallback fragment | in a document of at most 50 pages, each container of real text becomes a fragment with its own size, weight and position; a longer document still falls back | high; not executed | Ingest.LayoutIgnoredAsWritten | Ingest.ExtractWithLayoutIntended |

`Outline.ExtractOutline` keeps the code as written, since that is the behaviour
of the program; `Outline.ExtractOutlineIntended` runs the same assembly over
the corrected ingestion.

=== FILE: base.dfy ===
/** Small failure-carrying datatypes shared by the pipeline's modules. */
module Base {

  /** A value that may be absent (Python's `None`). */
  datatype Option<+T> = None | Some(value: T)

  /** The outcome of a step that may raise: `Failure` carries the exception's message. */
  datatype Result<+T> = Success(value: T) | Failure(message: string)

  /** Every value `f` gives for an element of `xs` is in `r`. */
  predicate AllPresent<X, Y(==)>(xs: seq<X>, f: X -> Option<Y>, r: seq<Y>) {
    forall j :: 0 <= j < |xs| && f(xs[j]).Some? ==> f(xs[j]).value in r
  }

  /** `f` gives no value for any element of `xs`. */
  predicate NonePresent<X, Y(==)>(xs: seq<X>, f: X -> Option<Y>) {
    forall j :: 0 <= j < |xs| ==> f(xs[j]).None?
  }

  /** The values `f` gives for the elements of `xs`, in order, skipping absent ones. */
  function Present<X, Y(==)>(xs: seq<X>, f: X -> Option<Y>): (r: seq<Y>)
    ensures AllPresent(xs, f, r)
    ensures forall y :: y in r ==> exists j :: 0 <= j < |xs| && f(xs[j]).Some? && y == f(xs[j]).value
    ensures |r| == 0 <==> NonePresent(xs, f)
    decreases |xs|
  {
    if |xs| == 0 then []
    else
      var rest := Present(xs[1..], f);
      assert forall j :: 1 <= j < |xs| ==> xs[j] == xs[1..][j - 1];
      (if f(xs[0]).Some? then [f(xs[0]).value] else []) + rest
  }

  lemma {:induction false} AllPresentSubset<X, Y>(xs: seq<X>, f: X -> Option<Y>, a: seq<Y>, b: seq<Y>)
    requires AllPresent(xs, f, a)
    requires forall y :: y in a ==> y in b
    ensures AllPresent(xs, f, b)
  {
  }

  // ------------------------------------------------------------------ sequence identities

  /** Concatenation regroups freely. */
  lemma AppendAssoc<T>(x: seq<T>, y: seq<T>, z: seq<T>)
    ensures x + (y + z) == x + y + z
  {
  }

  /** A non-empty sequence is its head followed by its tail, also in front of more. */
  lemma Uncons<T>(a: seq<T>, b: seq<T>)
    requires |a| > 0
    ensures a == [a[0]] + a[1..]
    ensures (a + b)[0] == a[0] && (a + b)[1..] == a[1..] + b
    ensures a + b == [a[0]] + (a[1..] + b)
  {
  }

  /** An empty sequence adds nothing in front. */
  lemma EmptyPrefix<T>(a: seq<T>, x: seq<T>)
    requires |a| == 0
    ensures a == [] && a + x == x
  {
  }
}

=== FILE: classify.dfy ===
/**
  Heading classification (`classify_heading_level` in utils.py): an ordered
  chain of H1, H2 and H3 conditions over the font-size ratio, the bold flag,
  the position bucket and the shape of the text. The first level whose
  condition holds wins.
*/
module Classifier {
  import opened Base
  import opened Text
  import opened Ingest

  datatype Level = H1 | H2 | H3

  /** Not a heading < H3 < H2 < H1. */
  function Rank(l: Option<Level>): nat {
    match l
    case None => 0
    case Some(H3) => 1
    case Some(H2) => 2
    case Some(H1) => 3
  }

  // ------------------------------------------------------------------ text shapes

  predicate StartsWith(s: string, prefix: string) {
    |prefix| <= |s| && s[..|prefix|] == prefix
  }

  /** `str.startswith` with a tuple of prefixes. */
  predicate StartsWithAny(s: string, prefixes: seq<string>) {
    exists p :: p in prefixes && StartsWith(s, p)
  }

  const KeywordPrefixes: seq<string> := ["Chapter", "Section", "Part", "Introduction", "Conclusion"]

  const NumberedPrefixes: seq<string> := ["1.", "2.", "3.", "4.", "5.", "6.", "7.", "8.", "9."]

  /** Bullet, black circle, hyphen-minus and white circle. */
  const BulletPrefixes: seq<string> := ["\U{2022}", "\U{25CF}", "-", "\U{25CB}"]

  /** `str.isupper()` over ASCII: some upper-case letter and no lower-case one. */
  predicate AllUpper(s: string) {
    (exists c :: c in s && IsUpper(c)) && (forall c :: c in s ==> !IsLower(c))
  }

  /** Some digit among the first three characters. */
  predicate EarlyDigit(s: string) {
    exists i :: 0 <= i < |s| && i < 3 && IsDigit(s[i])
  }

  // ------------------------------------------------------------------ the chain

  /** The H1 tests, stated on the font size against the largest size. */
  predicate H1Test(text: string, fontSize: real, isBold: bool, position: Position, maxSize: real) {
    fontSize > 0.8 * maxSize || (fontSize > 0.6 * maxSize && isBold && position == Top)
    || StartsWithAny(text, KeywordPrefixes) || (|text| < 50 && AllUpper(text))
  }

  /** The H2 tests: a medium-large or bold medium font, a numbered prefix, or
      a digit early in a short text. */
  predicate H2Test(text: string, fontSize: real, isBold: bool, maxSize: real) {
    fontSize > 0.5 * maxSize || (fontSize > 0.4 * maxSize && isBold)
    || StartsWithAny(text, NumberedPrefixes) || (|text| < 80 && EarlyDigit(text))
  }

  /** The H3 tests: a medium or bold smaller font, a bullet, or a short text
      set above the mean size. */
  predicate H3Test(text: string, fontSize: real, isBold: bool, maxSize: real, meanSize: real) {
    fontSize > 0.3 * maxSize || (fontSize > 0.25 * maxSize && isBold)
    || StartsWithAny(text, BulletPrefixes) || (|text| < 120 && fontSize > meanSize)
  }

  /** `classify_heading_level`. The font size is measured against the
      document's largest; the last H3 test compares it with the mean. */
  function Classify(text: string, fontSize: real, isBold: bool, position: Position,
                    maxSize: real, meanSize: real): (r: Option<Level>)
    requires maxSize > 0.0
    // the first level whose tests hold wins, in both directions
    ensures r == Some(H1) <==> H1Test(text, fontSize, isBold, position, maxSize)
    ensures r == Some(H2) <==> !H1Test(text, fontSize, isBold, position, maxSize)
                               && H2Test(text, fontSize, isBold, maxSize)
    ensures r == Some(H3) <==> !H1Test(text, fontSize, isBold, position, maxSize)
                               && !H2Test(text, fontSize, isBold, maxSize)
                               && H3Test(text, fontSize, isBold, maxSize, meanSize)
    ensures r.None? <==> !H1Test(text, fontSize, isBold, position, maxSize)
                         && !H2Test(text, fontSize, isBold, maxSize)
                         && !H3Test(text, fontSize, isBold, maxSize, meanSize)
  {
    var ratio := fontSize / maxSize;
    RatioAbove(fontSize, maxSize, 0.8);
    RatioAbove(fontSize, maxSize, 0.6);
    RatioAbove(fontSize, maxSize, 0.5);
    RatioAbove(fontSize, maxSize, 0.4);
    RatioAbove(fontSize, maxSize, 0.3);
    RatioAbove(fontSize, maxSize, 0.25);
    RatioCompare(fontSize, meanSize, maxSize);
    if ratio > 0.8 || (ratio > 0.6 && isBold && position == Top)
       || StartsWithAny(text, KeywordPrefixes) || (|text| < 50 && AllUpper(text)) then
      Some(H1)
    else if ratio > 0.5 || (ratio > 0.4 && isBold)
       || StartsWithAny(text, NumberedPrefixes) || (|text| < 80 && EarlyDigit(text)) then
      Some(H2)
    else if ratio > 0.3 || (ratio > 0.25 && isBold)
       || StartsWithAny(text, BulletPrefixes) || (|text| < 120 && ratio > meanSize / maxSize) then
      Some(H3)
    else
      None
  }

  /** A ratio threshold is a threshold on the font size itself. */
  lemma RatioAbove(fontSize: real, maxSize: real, t: real)
    requires maxSize > 0.0
    ensures fontSize / maxSize > t <==> fontSize > t * maxSize
  {
    assert fontSize / maxSize * maxSize == fontSize;
    if fontSize / maxSize > t {
      assert fontSize / maxSize * maxSize > t * maxSize;
    } else {
      assert fontSize / maxSize * maxSize <= t * maxSize;
    }
  }

  /** Dividing by the same positive number keeps the order. */
  lemma RatioCompare(a: real, b: real, maxSize: real)
    requires maxSize > 0.0
    ensures a / maxSize > b / maxSize <==> a > b
  {
    RatioAbove(a, maxSize, b / maxSize);
    assert b / maxSize * maxSize == b;
  }

  // ------------------------------------------------------------------ properties

  /** Raising the font size, all else fixed, never lowers the level. */
  lemma ClassifyMonotone(text: string, small: real, large: real, isBold: bool, position: Position,
                         maxSize: real, meanSize: real)
    requires maxSize > 0.0
    requires small <= large
    ensures Rank(Classify(text, small, isBold, position, maxSize, meanSize))
         <= Rank(Classify(text, large, isBold, position, maxSize, meanSize))
  {
    RatioCompare(small, large, maxSize);
  }

  /** Half the largest size is not above the H2 threshold, and "Overview" has no
      digit or numbered prefix, so it falls to H3 on its ratio. */
  lemma HalfSizeOverviewIsH3()
    ensures Classify("Overview", 9.0, false, Middle, 18.0, 10.0) == Some(H3)
  {
    var t := "Overview";
    assert t[..2][0] == 'O';
    assert !StartsWith(t, "1.") && !StartsWith(t, "2.") && !StartsWith(t, "3.");
    assert !StartsWith(t, "4.") && !StartsWith(t, "5.") && !StartsWith(t, "6.");
    assert !StartsWith(t, "7.") && !StartsWith(t, "8.") && !StartsWith(t, "9.");
    assert !StartsWith(t, "Chapter") && !StartsWith(t, "Section") && !StartsWith(t, "Part");
    assert !StartsWith(t, "Introduction") && !StartsWith(t, "Conclusion");
    assert t[1] == 'v' && IsLower(t[1]);
  }

  /** A bold font just above 0.4 of the largest size is an H2 even below the
      0.5 threshold, while the same text set in a regular face is an H3. */
  lemma BoldMediumIsH2()
    ensures Classify("overview", 9.0, true, Middle, 20.0, 10.0) == Some(H2)
    ensures Classify("overview", 9.0, false, Middle, 20.0, 10.0) == Some(H3)
  {
    var t := "overview";
    assert t[..7][0] == 'o' && t[..4][0] == 'o';
    assert !StartsWith(t, "Chapter") && !StartsWith(t, "Section") && !StartsWith(t, "Part");
    assert !StartsWith(t, "Introduction") && !StartsWith(t, "Conclusion");
    assert t[0] == 'o' && IsLower(t[0]);
  }
}

=== FILE: headings.dfy ===
/**
  Heading assembly (`analyze_headings` in utils.py): font-size statistics over
  the fragments with a positive size, the length filter, classification, and
  Python's stable sort on the key (page, -font size, position is top).
*/
module Headings {
  import opened Base
  import opened Ingest
  import opened Classifier

  /** A classified heading; size and position are kept for the sort. */
  datatype Heading = Heading(level: Level, text: string, page: int, fontSize: real, position: Position)

  // ------------------------------------------------------------------ statistics

  /** The positive font sizes, in fragment order. */
  function PositiveSizes(fs: seq<Fragment>): (r: seq<real>)
    ensures forall x :: x in r ==> x > 0.0 && exists f :: f in fs && f.fontSize == x
    ensures forall f :: f in fs && f.fontSize > 0.0 ==> f.fontSize in r
    ensures |r| == 0 <==> forall f :: f in fs ==> f.fontSize <= 0.0
    decreases |fs|
  {
    if |fs| == 0 then []
    else
      var rest := PositiveSizes(fs[1..]);
      assert forall f :: f in fs[1..] ==> f in fs;
      assert forall f :: f in fs ==> f == fs[0] || f in fs[1..];
      (if fs[0].fontSize > 0.0 then [fs[0].fontSize] else []) + rest
  }

  function MaxOf(xs: seq<real>): (m: real)
    requires |xs| > 0
    ensures m in xs
    ensures forall x :: x in xs ==> x <= m
    decreases |xs|
  {
    if |xs| == 1 then xs[0]
    else
      var rest := MaxOf(xs[1..]);
      assert forall x :: x in xs ==> x == xs[0] || x in xs[1..];
      if xs[0] >= rest then xs[0] else rest
  }

  function Sum(xs: seq<real>): real
    decreases |xs|
  {
    if |xs| == 0 then 0.0 else xs[0] + Sum(xs[1..])
  }

  /** A sum of values in (0, m] is positive when there is one, and at most
      their count times `m`. */
  lemma {:induction false} SumBounds(xs: seq<real>, m: real)
    requires forall x :: x in xs ==> 0.0 < x <= m
    ensures |xs| > 0 ==> Sum(xs) > 0.0
    ensures Sum(xs) <= |xs| as real * m
    decreases |xs|
  {
    if |xs| > 0 {
      assert xs[0] in xs;
      assert forall x :: x in xs[1..] ==> x in xs;
      SumBounds(xs[1..], m);
      assert |xs| as real * m == m + |xs[1..]| as real * m;
    }
  }

  /** A quotient of a positive total by a positive count is positive, and at
      most `m` when the total is at most count times `m`. */
  lemma MeanBounds(total: real, n: real, m: real)
    requires n > 0.0 && 0.0 < total <= n * m
    ensures 0.0 < total / n <= m
  {
    assert total / n * n == total;
  }

  /** The mean of values in (0, m] lies in (0, m]. */
  lemma MeanOfSizes(xs: seq<real>, m: real)
    requires |xs| > 0
    requires forall x :: x in xs ==> 0.0 < x <= m
    ensures 0.0 < Sum(xs) / |xs| as real <= m
  {
    SumBounds(xs, m);
    MeanBounds(Sum(xs), |xs| as real, m);
  }

  datatype Stats = Stats(max: real, mean: real)

  /** The largest and the mean of the positive font sizes; `None` when no
      fragment has a positive size. */
  function SizeStats(fs: seq<Fragment>): (r: Option<Stats>)
    ensures r.None? <==> forall f :: f in fs ==> f.fontSize <= 0.0
    ensures r.Some? ==> exists f :: f in fs && f.fontSize == r.value.max
    ensures r.Some? ==> forall f :: f in fs ==> f.fontSize <= r.value.max
    ensures r.Some? ==> 0.0 < r.value.mean <= r.value.max
    ensures r.Some? ==> r.value.mean == Sum(PositiveSizes(fs)) / |PositiveSizes(fs)| as real
  {
    var sizes := PositiveSizes(fs);
    if |sizes| == 0 then None
    else
      var m := MaxOf(sizes);
      MeanOfSizes(sizes, m);
      Some(Stats(m, Sum(sizes) / |sizes| as real))
  }

  /** `n` copies of `m` added up. */
  function Copies(n: nat, m: real): real
    decreases n
  {
    if n == 0 then 0.0 else m + Copies(n - 1, m)
  }

  lemma {:induction false} CopiesProduct(n: nat, m: real)
    ensures Copies(n, m) == n as real * m
    decreases n
  {
    if n > 0 {
      CopiesProduct(n - 1, m);
      assert n as real * m == m + (n - 1) as real * m;
    }
  }

  /** A sum of values at most `m` is at most that many copies of `m`, and
      reaches it exactly when every value is `m`. */
  lemma {:induction false} SumAtBound(xs: seq<real>, m: real)
    requires forall x :: x in xs ==> x <= m
    ensures Sum(xs) <= Copies(|xs|, m)
    ensures Sum(xs) == Copies(|xs|, m) <==> forall x :: x in xs ==> x == m
    decreases |xs|
  {
    if |xs| > 0 {
      assert xs[0] in xs;
      assert forall x :: x in xs[1..] ==> x in xs;
      assert forall x :: x in xs ==> x == xs[0] || x in xs[1..];
      SumAtBound(xs[1..], m);
    }
  }

  /** Multiplying by the same positive number is injective. */
  lemma CancelPositive(a: real, b: real, n: real)
    requires n > 0.0 && a * n == b * n
    ensures a == b
  {
  }

  /** The mean of values at most `m` times their count is their sum, and it
      is `m` exactly when every value is `m`. */
  lemma MeanAtBound(xs: seq<real>, m: real)
    requires |xs| > 0
    requires forall x :: x in xs ==> x <= m
    ensures Sum(xs) / |xs| as real * |xs| as real == Sum(xs)
    ensures Sum(xs) / |xs| as real == m <==> forall x :: x in xs ==> x == m
  {
    var n := |xs| as real;
    var mean := Sum(xs) / n;
    assert mean * n == Sum(xs);
    SumAtBound(xs, m);
    CopiesProduct(|xs|, m);
    if Sum(xs) == n * m {
      CancelPositive(mean, m, n);
    }
  }

  /** The mean is the largest size exactly when every positive size is the
      largest. */
  lemma SizeStatsMean(fs: seq<Fragment>)
    requires SizeStats(fs).Some?
    ensures SizeStats(fs).value.mean == SizeStats(fs).value.max <==>
      forall f :: f in fs && f.fontSize > 0.0 ==> f.fontSize == SizeStats(fs).value.max
  {
    var st := SizeStats(fs).value;
    MeanAtBound(PositiveSizes(fs), st.max);
  }

  // ------------------------------------------------------------------ classification

  /** Fragments of 2 to 200 characters, both ends included, are considered. */
  predicate LengthInRange(text: string) { 2 <= |text| <= 200 }

  /** The heading one fragment yields, if any. */
  function Candidate(f: Fragment, st: Stats): (r: Option<Heading>)
    requires st.max > 0.0
    ensures r.Some? <==> LengthInRange(f.text) && Classify(f.text, f.fontSize, f.isBold, f.position, st.max, st.mean).Some?
    ensures r.Some? ==> r.value == Heading(Classify(f.text, f.fontSize, f.isBold, f.position, st.max, st.mean).value,
                                           f.text, f.page, f.fontSize, f.position)
  {
    if |f.text| < 2 || |f.text| > 200 then None
    else
      match Classify(f.text, f.fontSize, f.isBold, f.position, st.max, st.mean)
      case None => None
      case Some(level) => Some(Heading(level, f.text, f.page, f.fontSize, f.position))
  }

  /** The classifying loop: candidates in fragment order. */
  function ClassifyAll(fs: seq<Fragment>, st: Stats): (r: seq<Heading>)
    requires st.max > 0.0
    ensures |r| <= |fs|
    ensures forall h :: h in r ==> exists f :: f in fs && Candidate(f, st) == Some(h)
    ensures forall f :: f in fs && Candidate(f, st).Some? ==> Candidate(f, st).value in r
    decreases |fs|
  {
    if |fs| == 0 then []
    else
      var here := Candidate(fs[0], st);
      var rest := ClassifyAll(fs[1..], st);
      assert forall f :: f in fs[1..] ==> f in fs;
      assert forall f :: f in fs ==> f == fs[0] || f in fs[1..];
      (if here.Some? then [here.value] else []) + rest
  }

  /** The classifying loop runs fragment by fragment: classifying two runs of
      fragments one after the other is classifying their concatenation. */
  lemma {:induction false} ClassifyAllConcat(a: seq<Fragment>, b: seq<Fragment>, st: Stats)
    requires st.max > 0.0
    ensures ClassifyAll(a + b, st) == ClassifyAll(a, st) + ClassifyAll(b, st)
    decreases |a|
  {
    if |a| > 0 {
      assert (a + b)[0] == a[0] && (a + b)[1..] == a[1..] + b;
      ClassifyAllConcat(a[1..], b, st);
    } else {
      assert a + b == b;
    }
  }

  // ------------------------------------------------------------------ the sort key

  /** `(page, -font_size, position == "top")`. */
  datatype SortKey = SortKey(page: int, negSize: real, top: bool)

  function Key(h: Heading): SortKey {
    SortKey(h.page, -h.fontSize, h.position == Top)
  }

  /** Python's tuple order on the key, with `False < True`. */
  predicate KeyLess(a: SortKey, b: SortKey) {
    a.page < b.page
    || (a.page == b.page && a.negSize < b.negSize)
    || (a.page == b.page && a.negSize == b.negSize && !a.top && b.top)
  }

  /** No heading has a strictly smaller key than one before it. */
  predicate Sorted(s: seq<Heading>) {
    forall i, j :: 0 <= i < j < |s| ==> !KeyLess(Key(s[j]), Key(s[i]))
  }

  /** The headings of `s` whose key is `k`, in order. */
  function WithKey(s: seq<Heading>, k: SortKey): seq<Heading>
    decreases |s|
  {
    if |s| == 0 then [] else (if Key(s[0]) == k then [s[0]] else []) + WithKey(s[1..], k)
  }

  /** Sorted order read off the key: pages ascending, then sizes descending,
      then headings away from the top before those at the top. */
  lemma SortedMeans(s: seq<Heading>, i: int, j: int)
    requires Sorted(s) && 0 <= i < j < |s|
    ensures s[i].page <= s[j].page
    ensures s[i].page == s[j].page ==> s[i].fontSize >= s[j].fontSize
    ensures s[i].page == s[j].page && s[i].fontSize == s[j].fontSize ==> !(s[i].position == Top && s[j].position != Top)
  {
    assert !KeyLess(Key(s[j]), Key(s[i]));
  }

  // ------------------------------------------------------------------ stable insertion sort

  /** Places `h` before the first heading whose key is strictly larger, so it
      follows every heading with an equal key. */
  function Insert(h: Heading, s: seq<Heading>): (r: seq<Heading>)
    ensures multiset(r) == multiset(s) + multiset{h}
    ensures |r| == |s| + 1
    decreases |s|
  {
    if |s| == 0 then [h]
    else if KeyLess(Key(h), Key(s[0])) then [h] + s
    else
      var rest := Insert(h, s[1..]);
      assert s == [s[0]] + s[1..];
      [s[0]] + rest
  }

  lemma {:induction false} InsertSorted(h: Heading, s: seq<Heading>)
    requires Sorted(s)
    ensures Sorted(Insert(h, s))
    ensures |s| > 0 ==> Insert(h, s)[0] == h || Insert(h, s)[0] == s[0]
    decreases |s|
  {
    if |s| > 0 && !KeyLess(Key(h), Key(s[0])) {
      InsertSorted(h, s[1..]);
      var r := Insert(h, s);
      forall i, j | 0 <= i < j < |r|
        ensures !KeyLess(Key(r[j]), Key(r[i]))
      {
        if i == 0 && j == 1 && |s| > 1 && Insert(h, s[1..])[0] == s[1] {
          assert r[j] == s[1];
        } else if i == 0 {
          assert r[j] in multiset(Insert(h, s[1..]));
          assert r[j] in multiset(s[1..]) + multiset{h};
          if r[j] != h {
            assert r[j] in s[1..];
            var k :| 0 <= k < |s[1..]| && s[1..][k] == r[j];
            assert s[k + 1] == r[j];
          }
        }
      }
    }
  }

  /** Every heading after `h`'s insertion point has a strictly larger key. */
  lemma {:induction false} LaterKeysLarger(h: Heading, s: seq<Heading>)
    requires Sorted(s) && |s| > 0 && KeyLess(Key(h), Key(s[0]))
    ensures WithKey(s, Key(h)) == []
    decreases |s|
  {
    if |s| > 1 {
      assert !KeyLess(Key(s[1]), Key(s[0]));
      assert Sorted(s[1..]) by {
        forall i, j | 0 <= i < j < |s[1..]| ensures !KeyLess(Key(s[1..][j]), Key(s[1..][i])) {
          assert s[1..][i] == s[i + 1] && s[1..][j] == s[j + 1];
        }
      }
      LaterKeysLarger(h, s[1..]);
    }
  }

  /** Inserting `h` appends it to the headings of its own key and leaves the
      others alone. */
  lemma {:induction false} InsertWithKey(h: Heading, s: seq<Heading>, k: SortKey)
    requires Sorted(s)
    ensures WithKey(Insert(h, s), k) == WithKey(s, k) + (if Key(h) == k then [h] else [])
    decreases |s|
  {
    if |s| == 0 {
    } else if KeyLess(Key(h), Key(s[0])) {
      if Key(h) == k {
        LaterKeysLarger(h, s);
      }
      assert ([h] + s)[1..] == s;
    } else {
      assert Sorted(s[1..]) by {
        forall i, j | 0 <= i < j < |s[1..]| ensures !KeyLess(Key(s[1..][j]), Key(s[1..][i])) {
          assert s[1..][i] == s[i + 1] && s[1..][j] == s[j + 1];
        }
      }
      InsertWithKey(h, s[1..], k);
      assert ([s[0]] + Insert(h, s[1..]))[1..] == Insert(h, s[1..]);
    }
  }

  lemma WithKeyAppend(s: seq<Heading>, h: Heading, k: SortKey)
    ensures WithKey(s + [h], k) == WithKey(s, k) + (if Key(h) == k then [h] else [])
    decreases |s|
  {
    if |s| > 0 {
      assert (s + [h])[1..] == s[1..] + [h];
      WithKeyAppend(s[1..], h, k);
    }
  }

  /** `list.sort(key=…)`: Python's sort is stable, so headings with equal keys
      keep their input order. */
  function SortHeadings(s: seq<Heading>): (r: seq<Heading>)
    ensures Sorted(r)
    ensures multiset(r) == multiset(s)
    ensures forall k :: WithKey(r, k) == WithKey(s, k)
    decreases |s|
  {
    if |s| == 0 then []
    else
      var init := s[..|s| - 1];
      var last := s[|s| - 1];
      var rest := SortHeadings(init);
      InsertSorted(last, rest);
      SplitLast(s);
      forall k ensures WithKey(Insert(last, rest), k) == WithKey(s, k) {
        InsertWithKey(last, rest, k);
        WithKeyAppend(init, last, k);
      }
      Insert(last, rest)
  }

  lemma SplitLast<T>(s: seq<T>)
    requires |s| > 0
    ensures s == s[..|s| - 1] + [s[|s| - 1]]
  {
  }

  /** A list that is already in key order is left as it is. */
  lemma {:induction false} SortSortedIsIdentity(s: seq<Heading>)
    requires Sorted(s)
    ensures SortHeadings(s) == s
    decreases |s|
  {
    if |s| > 0 {
      var init := s[..|s| - 1];
      var last := s[|s| - 1];
      assert Sorted(init) by {
        forall i, j | 0 <= i < j < |init| ensures !KeyLess(Key(init[j]), Key(init[i])) {
          assert init[i] == s[i] && init[j] == s[j];
        }
      }
      SortSortedIsIdentity(init);
      InsertAtEnd(last, init);
      SplitLast(s);
    }
  }

  /** A heading whose key is not below any key of a sorted list goes at its end. */
  lemma {:induction false} InsertAtEnd(h: Heading, s: seq<Heading>)
    requires forall i :: 0 <= i < |s| ==> !KeyLess(Key(h), Key(s[i]))
    ensures Insert(h, s) == s + [h]
    decreases |s|
  {
    if |s| > 0 {
      assert !KeyLess(Key(h), Key(s[0]));
      InsertAtEnd(h, s[1..]);
      assert [s[0]] + (s[1..] + [h]) == s + [h];
    }
  }

  // ------------------------------------------------------------------ analyze_headings

  /** `analyze_headings`: nothing when no fragment has a positive size;
      otherwise the classified fragments of 2 to 200 characters, stably sorted
      by page, then size descending, then top of page last. */
  function Analyze(fs: seq<Fragment>): (r: seq<Heading>)
    ensures (forall f :: f in fs ==> f.fontSize <= 0.0) ==> r == []
    ensures Sorted(r)
    ensures forall h :: h in r ==> LengthInRange(h.text)
    ensures forall h :: h in r ==>
      SizeStats(fs).Some? && exists f :: f in fs && Candidate(f, SizeStats(fs).value) == Some(h)
    ensures SizeStats(fs).Some? ==>
      forall f :: f in fs && Candidate(f, SizeStats(fs).value).Some? ==> Candidate(f, SizeStats(fs).value).value in r
    ensures SizeStats(fs).Some? ==> multiset(r) == multiset(ClassifyAll(fs, SizeStats(fs).value))
    ensures SizeStats(fs).Some? ==> forall k :: WithKey(r, k) == WithKey(ClassifyAll(fs, SizeStats(fs).value), k)
  {
    match SizeStats(fs)
    case None => []
    case Some(st) =>
      var found := ClassifyAll(fs, st);
      var r := SortHeadings(found);
      assert forall h :: h in r <==> h in found by {
        forall h ensures h in r <==> h in found {
          assert h in r <==> h in multiset(r);
          assert h in found <==> h in multiset(found);
        }
      }
      r
  }

  /** A fragment of 2 to 200 characters at the document's largest font size is
      always among the headings, at level H1. */
  lemma MaxSizeIsH1(fs: seq<Fragment>, f: Fragment)
    requires f in fs && LengthInRange(f.text) && f.fontSize > 0.0
    requires forall g :: g in fs ==> g.fontSize <= f.fontSize
    ensures exists h :: h in Analyze(fs) && h.level == H1 && h.text == f.text && h.page == f.page
  {
    var st := SizeStats(fs).value;
    assert st.max == f.fontSize;
    RatioAbove(f.fontSize, st.max, 0.8);
    assert Candidate(f, st).value in Analyze(fs);
  }
}

=== FILE: ingest.dfy ===
/**
  Layout ingestion (`extract_text_with_layout`, `extract_simple_text`,
  `calculate_position`, `extract_font_info` in utils.py). The PDF layout engine
  is replaced by its output: pages of text blocks, each with a bounding box and
  the character records it holds.
*/
module Ingest {
  import opened Base
  import opened Text

  // ------------------------------------------------------------------ input and fragments

  /** One character record of a block: its font size and font name. */
  datatype CharRecord = CharRecord(size: real, fontName: string)

  /** A text container on a page: its raw text, bounding box and characters. */
  datatype Block = Block(text: string, x0: real, y0: real, x1: real, y1: real, chars: seq<CharRecord>)

  /** A page: its height when the layout reports one, and its text containers in order. */
  datatype Page = Page(height: Option<real>, blocks: seq<Block>)

  /** The vertical bucket of a fragment on its page. */
  datatype Position = Top | Middle | Bottom

  /** A positioned text fragment; `page` counts from 1. */
  datatype Fragment = Fragment(
    text: string, page: int,
    x0: real, y0: real, x1: real, y1: real,
    fontSize: real, fontName: string, isBold: bool, isItalic: bool,
    position: Position)

  /** Pages after this one are never read. */
  const PageLimit: int := 50

  const PageLimitMessage: string := "PDF exceeds 50 page limit"

  /** The fixed metadata every fallback fragment carries. */
  function FallbackFragment(text: string, page: int): Fragment {
    Fragment(text, page, 0.0, 0.0, 0.0, 0.0, 12.0, "", false, false, Middle)
  }

  predicate IsFallbackFragment(f: Fragment) {
    f == FallbackFragment(f.text, f.page)
  }

  // ------------------------------------------------------------------ sentence split

  /** The class `[.!?]` of the fallback's sentence split. */
  predicate IsTerminator(c: char) { c == '.' || c == '!' || c == '?' }

  /** Number of maximal runs of `[.!?]` in `s`. */
  function TerminatorRuns(s: string): nat
    decreases |s|
  {
    if |s| == 0 then 0
    else if IsTerminator(s[0]) && (|s| == 1 || !IsTerminator(s[1])) then 1 + TerminatorRuns(s[1..])
    else TerminatorRuns(s[1..])
  }

  /** `s` with every character of `[.!?]` removed. */
  function WithoutTerminators(s: string): string
    decreases |s|
  {
    if |s| == 0 then []
    else (if IsTerminator(s[0]) then [] else [s[0]]) + WithoutTerminators(s[1..])
  }

  function Concat(parts: seq<string>): string
    decreases |parts|
  {
    if |parts| == 0 then [] else parts[0] + Concat(parts[1..])
  }

  /** `re.split(r'[.!?]+', s)`: the pieces between maximal runs of `.!?`,
      including an empty piece before a leading run and after a trailing one. */
  function SplitSentences(s: string): (r: seq<string>)
    ensures |r| == TerminatorRuns(s) + 1
    ensures forall i :: 0 <= i < |r| ==> NoTerminator(r[i])
    ensures Concat(r) == WithoutTerminators(s)
    ensures NoTerminator(s) ==> r == [s]
    decreases |s|
  {
    if |s| == 0 then [""]
    else if IsTerminator(s[0]) then
      if |s| > 1 && IsTerminator(s[1]) then SplitSentences(s[1..])
      else [""] + SplitSentences(s[1..])
    else
      var rest := SplitSentences(s[1..]);
      SplitCons(s, rest);
      [[s[0]] + rest[0]] + rest[1..]
  }

  /** A character that is not a terminator joins the first piece. */
  lemma SplitCons(s: string, rest: seq<string>)
    requires |s| > 0 && !IsTerminator(s[0]) && |rest| > 0
    requires forall i :: 0 <= i < |rest| ==> NoTerminator(rest[i])
    requires NoTerminator(s[1..]) ==> rest == [s[1..]]
    ensures var r := [[s[0]] + rest[0]] + rest[1..];
      && |r| == |rest|
      && Concat(r) == [s[0]] + Concat(rest)
      && (forall i :: 0 <= i < |r| ==> NoTerminator(r[i]))
      && (NoTerminator(s) ==> r == [s])
  {
    ConcatCons(s[0], rest);
    var r := [[s[0]] + rest[0]] + rest[1..];
    assert NoTerminator(s) ==> NoTerminator(s[1..]) by { assert forall c :: c in s[1..] ==> c in s; }
    assert [s[0]] + s[1..] == s;
    assert NoTerminator(r[0]) by { assert forall c :: c in r[0] ==> c == s[0] || c in rest[0]; }
    assert forall i :: 1 <= i < |r| ==> r[i] == rest[i];
  }

  lemma ConcatCons(c: char, parts: seq<string>)
    requires |parts| > 0
    ensures Concat([[c] + parts[0]] + parts[1..]) == [c] + Concat(parts)
  {
    var r := [[c] + parts[0]] + parts[1..];
    assert r[1..] == parts[1..];
  }

  /** A non-empty run of `.!?`. */
  predicate TerminatorRun(run: string) {
    |run| > 0 && forall c :: c in run ==> IsTerminator(c)
  }

  /** Splitting at the first run: a text that starts with a terminator-free
      piece `a`, then a whole run, then a text `b` not starting with one, splits
      into `a` followed by the pieces of `b`. With the single-piece case of
      `SplitSentences` this fixes every split point. */
  lemma {:induction false} SplitAtRun(a: string, run: string, b: string)
    requires NoTerminator(a) && TerminatorRun(run)
    requires |b| == 0 || !IsTerminator(b[0])
    ensures SplitSentences(a + run + b) == [a] + SplitSentences(b)
    decreases |a|
  {
    if |a| == 0 {
      assert a + run + b == run + b;
      SplitRunPrefix(run, b);
    } else {
      var s := a + run + b;
      assert s[0] == a[0] && !IsTerminator(a[0]);
      assert s[1..] == a[1..] + run + b;
      assert NoTerminator(a[1..]) by { assert forall c :: c in a[1..] ==> c in a; }
      SplitAtRun(a[1..], run, b);
      var rest := [a[1..]] + SplitSentences(b);
      SplitStep(s);
      assert rest[0] == a[1..] && rest[1..] == SplitSentences(b);
      assert [a[0]] + a[1..] == a;
    }
  }

  /** A first character that is not a terminator joins the first piece. */
  lemma SplitStep(s: string)
    requires |s| > 0 && !IsTerminator(s[0])
    ensures SplitSentences(s) == [[s[0]] + SplitSentences(s[1..])[0]] + SplitSentences(s[1..])[1..]
  {
  }

  /** A whole run at the front gives one empty piece. */
  lemma {:induction false} SplitRunPrefix(run: string, b: string)
    requires TerminatorRun(run)
    requires |b| == 0 || !IsTerminator(b[0])
    ensures SplitSentences(run + b) == [""] + SplitSentences(b)
    decreases |run|
  {
    var s := run + b;
    assert run[0] in run;
    assert s[0] == run[0] && s[1..] == run[1..] + b;
    if |run| > 1 {
      assert run[1] in run && s[1] == run[1];
      assert forall c :: c in run[1..] ==> c in run;
      SplitRunPrefix(run[1..], b);
    } else {
      assert run[1..] + b == b;
    }
  }

  // ------------------------------------------------------------------ fallback ingestion

  /** The page's container texts, each followed by one space. */
  function PageText(blocks: seq<Block>): string
    decreases |blocks|
  {
    if |blocks| == 0 then "" else blocks[0].text + " " + PageText(blocks[1..])
  }

  /** No character of `s` is one of `.!?`. */
  predicate NoTerminator(s: string) {
    forall c :: c in s ==> !IsTerminator(c)
  }

  /** What every fallback fragment satisfies apart from its page number. */
  predicate SentenceShaped(f: Fragment) {
    IsFallbackFragment(f) && |f.text| > 5 && Stripped(f.text) && NoTerminator(f.text)
  }

  /** Each sentence with its surrounding whitespace removed. */
  function StripEach(sentences: seq<string>): (r: seq<string>)
    ensures |r| == |sentences|
    ensures forall i :: 0 <= i < |sentences| ==> r[i] == Strip(sentences[i])
  {
    seq(|sentences|, i requires 0 <= i < |sentences| => Strip(sentences[i]))
  }

  /** The fragment one sentence gives: its stripped text when that is longer
      than five characters, nothing otherwise. */
  function SentenceFragment(sentence: string, pageNum: int): seq<Fragment> {
    var text := Strip(sentence);
    if |text| > 5 then [FallbackFragment(text, pageNum)] else []
  }

  /** The stripped sentences longer than five characters, as fallback fragments:
      a fragment is in the result exactly when it is the fallback fragment of
      such a sentence on this page. */
  function SentenceFragments(sentences: seq<string>, pageNum: int): (r: seq<Fragment>)
    requires forall i :: 0 <= i < |sentences| ==> NoTerminator(sentences[i])
    ensures |r| <= |sentences|
    ensures forall f :: f in r ==> SentenceShaped(f) && f.page == pageNum
    ensures forall f :: f in r <==>
      f == FallbackFragment(f.text, pageNum) && |f.text| > 5 && f.text in StripEach(sentences)
    decreases |sentences|
  {
    if |sentences| == 0 then []
    else
      var here := SentenceFragment(sentences[0], pageNum);
      var rest := SentenceFragments(sentences[1..], pageNum);
      StripEachCons(sentences);
      FragmentsCons(sentences[0], StripEach(sentences[1..]), here, rest, pageNum);
      here + rest
  }

  /** Sentences become fragments one at a time, in order: the fragments of
      two runs of sentences are those of the first run followed by those of
      the second. */
  lemma {:induction false} SentenceFragmentsConcat(a: seq<string>, b: seq<string>, pageNum: int)
    requires forall i :: 0 <= i < |a| ==> NoTerminator(a[i])
    requires forall i :: 0 <= i < |b| ==> NoTerminator(b[i])
    ensures forall i :: 0 <= i < |a + b| ==> NoTerminator((a + b)[i])
    ensures SentenceFragments(a + b, pageNum) == SentenceFragments(a, pageNum) + SentenceFragments(b, pageNum)
    decreases |a|
  {
    AllNoTerminator(a, b);
    if |a| == 0 {
      assert a + b == b;
    } else {
      AllNoTerminator(a[1..], b);
      SentenceFragmentsConcat(a[1..], b, pageNum);
      FragmentsConcatStep(a, b, pageNum);
    }
  }

  lemma AllNoTerminator(a: seq<string>, b: seq<string>)
    requires forall i :: 0 <= i < |a| ==> NoTerminator(a[i])
    requires forall i :: 0 <= i < |b| ==> NoTerminator(b[i])
    ensures forall i :: 0 <= i < |a + b| ==> NoTerminator((a + b)[i])
  {
    forall i | 0 <= i < |a + b|
      ensures NoTerminator((a + b)[i])
    {
      if i < |a| {
        assert (a + b)[i] == a[i];
      } else {
        assert (a + b)[i] == b[i - |a|];
      }
    }
  }

  lemma FragmentsConcatStep(a: seq<string>, b: seq<string>, pageNum: int)
    requires |a| > 0
    requires forall i :: 0 <= i < |a| ==> NoTerminator(a[i])
    requires forall i :: 0 <= i < |b| ==> NoTerminator(b[i])
    requires forall i :: 0 <= i < |a + b| ==> NoTerminator((a + b)[i])
    requires forall i :: 0 <= i < |a[1..] + b| ==> NoTerminator((a[1..] + b)[i])
    requires SentenceFragments(a[1..] + b, pageNum) == SentenceFragments(a[1..], pageNum) + SentenceFragments(b, pageNum)
    ensures SentenceFragments(a + b, pageNum) == SentenceFragments(a, pageNum) + SentenceFragments(b, pageNum)
  {
    Uncons(a, b);
    FragmentsUnfold(a + b, pageNum);
    FragmentsUnfold(a, pageNum);
    AppendAssoc(SentenceFragment(a[0], pageNum), SentenceFragments(a[1..], pageNum), SentenceFragments(b, pageNum));
  }

  lemma FragmentsUnfold(s: seq<string>, pageNum: int)
    requires |s| > 0
    requires forall i :: 0 <= i < |s| ==> NoTerminator(s[i])
    ensures SentenceFragments(s, pageNum) == SentenceFragment(s[0], pageNum) + SentenceFragments(s[1..], pageNum)
  {
  }

  lemma StripEachCons(sentences: seq<string>)
    requires |sentences| > 0
    ensures StripEach(sentences) == [Strip(sentences[0])] + StripEach(sentences[1..])
  {
  }

  lemma FragmentsCons(raw: string, texts: seq<string>, here: seq<Fragment>, rest: seq<Fragment>, pageNum: int)
    requires NoTerminator(raw)
    requires here == SentenceFragment(raw, pageNum)
    requires forall f :: f in rest ==> SentenceShaped(f) && f.page == pageNum
    requires forall f :: f in rest <==> f == FallbackFragment(f.text, pageNum) && |f.text| > 5 && f.text in texts
    ensures forall f :: f in here + rest ==> SentenceShaped(f) && f.page == pageNum
    ensures forall f :: f in here + rest <==>
      f == FallbackFragment(f.text, pageNum) && |f.text| > 5 && f.text in [Strip(raw)] + texts
  {
    StripNoTerminator(raw);
  }

  lemma {:induction false} StripNoTerminator(s: string)
    requires NoTerminator(s)
    ensures NoTerminator(Strip(s))
  {
    StripChars(s);
  }

  /** The fragments one page contributes to the fallback. */
  function PageSentences(page: Page, pageNum: int, repairs: Repairs): (r: seq<Fragment>)
    ensures forall f :: f in r ==> SentenceShaped(f) && f.page == pageNum
    ensures |Strip(PageText(page.blocks))| == 0 ==> r == []
    ensures |Strip(PageText(page.blocks))| > 0 ==>
      var pieces := StripEach(SplitSentences(FixTextSpacing(Strip(PageText(page.blocks)), repairs)));
      forall f :: f in r <==> f == FallbackFragment(f.text, pageNum) && |f.text| > 5 && f.text in pieces
    ensures |Strip(PageText(page.blocks))| > 0 ==>
      var sentences := SplitSentences(FixTextSpacing(Strip(PageText(page.blocks)), repairs));
      |r| <= |sentences| && InSentenceOrder(r, sentences, pageNum)
  {
    var pageText := Strip(PageText(page.blocks));
    if |pageText| == 0 then []
    else
      var sentences := SplitSentences(FixTextSpacing(pageText, repairs));
      SentenceFragmentsSplit(sentences, pageNum);
      SentenceFragments(sentences, pageNum)
  }

  /** Cutting the sentences anywhere cuts `r` at the same place: the
      fragments of the sentences before the cut come first, then those of
      the sentences after it. */
  predicate InSentenceOrder(r: seq<Fragment>, sentences: seq<string>, pageNum: int)
    requires forall i :: 0 <= i < |sentences| ==> NoTerminator(sentences[i])
  {
    forall k :: 0 <= k <= |sentences| ==>
      && (forall i :: 0 <= i < |sentences[..k]| ==> NoTerminator(sentences[..k][i]))
      && (forall i :: 0 <= i < |sentences[k..]| ==> NoTerminator(sentences[k..][i]))
      && r == SentenceFragments(sentences[..k], pageNum) + SentenceFragments(sentences[k..], pageNum)
  }

  lemma SentenceFragmentsSplit(sentences: seq<string>, pageNum: int)
    requires forall i :: 0 <= i < |sentences| ==> NoTerminator(sentences[i])
    ensures InSentenceOrder(SentenceFragments(sentences, pageNum), sentences, pageNum)
  {
    forall k | 0 <= k <= |sentences|
      ensures (forall i :: 0 <= i < |sentences[..k]| ==> NoTerminator(sentences[..k][i]))
      ensures (forall i :: 0 <= i < |sentences[k..]| ==> NoTerminator(sentences[k..][i]))
      ensures SentenceFragments(sentences, pageNum) == SentenceFragments(sentences[..k], pageNum) + SentenceFragments(sentences[k..], pageNum)
    {
      assert sentences == sentences[..k] + sentences[k..];
      assert forall i :: 0 <= i < |sentences| - k ==> sentences[k..][i] == sentences[k + i];
      SentenceFragmentsConcat(sentences[..k], sentences[k..], pageNum);
    }
  }

  /** Pages are sorted by page number. */
  predicate PageOrdered(fs: seq<Fragment>) {
    forall i, j :: 0 <= i < j < |fs| ==> fs[i].page <= fs[j].page
  }

  lemma {:induction false} OrderedAppend(here: seq<Fragment>, rest: seq<Fragment>, pageNum: int)
    requires forall f :: f in here ==> f.page == pageNum
    requires forall f :: f in rest ==> f.page > pageNum
    requires PageOrdered(rest)
    ensures PageOrdered(here + rest)
  {
    var s := here + rest;
    forall i, j | 0 <= i < j < |s|
      ensures s[i].page <= s[j].page
    {
      if j < |here| {
        assert s[i] in here && s[j] in here;
      } else if i < |here| {
        assert s[i] in here && s[j] in rest;
      } else {
        assert s[i] == rest[i - |here|] && s[j] == rest[j - |here|];
      }
    }
  }

  /** A page loop from page number `pageNum` on that stops silently once past
      the page limit; `step` gives the fragments of one numbered page. */
  function PageLoop(pages: seq<Page>, pageNum: int, step: (Page, int) -> seq<Fragment>): seq<Fragment>
    decreases |pages|
  {
    if |pages| == 0 || pageNum > PageLimit then []
    else step(pages[0], pageNum) + PageLoop(pages[1..], pageNum + 1, step)
  }

  /** When every page's fragments satisfy `P` and carry that page's number,
      the loop's fragments satisfy `P`, are numbered from `pageNum` to at most
      the limit, and come in page order. */
  lemma {:induction false} PageLoopShape(pages: seq<Page>, pageNum: int, step: (Page, int) -> seq<Fragment>, P: Fragment -> bool)
    requires forall p, n, f :: f in step(p, n) ==> P(f) && f.page == n
    ensures forall f :: f in PageLoop(pages, pageNum, step) ==>
      P(f) && pageNum <= f.page <= PageLimit && f.page < pageNum + |pages|
    ensures PageOrdered(PageLoop(pages, pageNum, step))
    decreases |pages|
  {
    if |pages| > 0 && pageNum <= PageLimit {
      PageLoopShape(pages[1..], pageNum + 1, step, P);
      OrderedAppend(step(pages[0], pageNum), PageLoop(pages[1..], pageNum + 1, step), pageNum);
    }
  }

  /** The loop reads no page past the limit: with enough pages, it gives the
      same fragments as the pages up to the limit. */
  lemma {:induction false} PageLoopTruncate(pages: seq<Page>, pageNum: int, step: (Page, int) -> seq<Fragment>)
    requires 1 <= pageNum <= PageLimit + 1
    requires |pages| >= PageLimit + 1 - pageNum
    ensures PageLoop(pages, pageNum, step) == PageLoop(pages[..PageLimit + 1 - pageNum], pageNum, step)
    decreases |pages|
  {
    if pageNum <= PageLimit {
      var short := pages[..PageLimit + 1 - pageNum];
      assert short[0] == pages[0];
      assert short[1..] == pages[1..][..PageLimit - pageNum];
      PageLoopTruncate(pages[1..], pageNum + 1, step);
    }
  }

  /** Every fragment of a page within the limit is in the loop's result, and
      every fragment of the result comes from the page its number names. */
  lemma {:induction false} PageLoopCovers(pages: seq<Page>, pageNum: int, step: (Page, int) -> seq<Fragment>)
    requires forall p, n, f :: f in step(p, n) ==> f.page == n
    ensures forall i, f :: 0 <= i < |pages| && pageNum + i <= PageLimit && f in step(pages[i], pageNum + i) ==>
      f in PageLoop(pages, pageNum, step)
    ensures forall f :: f in PageLoop(pages, pageNum, step) ==>
      pageNum <= f.page < pageNum + |pages| && f in step(pages[f.page - pageNum], f.page)
    decreases |pages|
  {
    if |pages| > 0 && pageNum <= PageLimit {
      PageLoopCovers(pages[1..], pageNum + 1, step);
      assert PageLoop(pages, pageNum, step) == step(pages[0], pageNum) + PageLoop(pages[1..], pageNum + 1, step);
      assert forall i :: 1 <= i < |pages| ==> pages[i] == pages[1..][i - 1];
    }
  }

  /** One page's step of the fallback. */
  function SimpleStep(repairs: Repairs): (Page, int) -> seq<Fragment> {
    (page, pageNum) => PageSentences(page, pageNum, repairs)
  }

  /** `extract_simple_text`: one fallback fragment per stripped sentence longer
      than five characters, taken from the first 50 pages in order. */
  function ExtractSimpleText(pages: seq<Page>, repairs: Repairs): (r: seq<Fragment>)
    ensures forall f :: f in r ==> SentenceShaped(f) && 1 <= f.page <= PageLimit && f.page <= |pages|
    ensures PageOrdered(r)
  {
    var step := SimpleStep(repairs);
    assert forall p, n, f :: f in step(p, n) ==> SentenceShaped(f) && f.page == n;
    PageLoopShape(pages, 1, step, SentenceShaped);
    PageLoop(pages, 1, step)
  }

  /** The fallback keeps every fragment of each of the first 50 pages, and
      each fragment it returns comes from the page its number names. A page's
      fragments are written `SimpleStep(repairs)(page, n)`, which is
      `PageSentences(page, n, repairs)`. */
  lemma SimpleTextCovers(pages: seq<Page>, repairs: Repairs)
    ensures forall i, f :: 0 <= i < |pages| && i < PageLimit && f in SimpleStep(repairs)(pages[i], i + 1) ==>
      f in ExtractSimpleText(pages, repairs)
    ensures forall f :: f in ExtractSimpleText(pages, repairs) ==>
      1 <= f.page <= |pages| && f in SimpleStep(repairs)(pages[f.page - 1], f.page)
  {
    SimpleStepTagged(repairs);
    PageLoopCovers(pages, 1, SimpleStep(repairs));
  }

  lemma SimpleStepTagged(repairs: Repairs)
    ensures forall p, n, f :: f in SimpleStep(repairs)(p, n) ==> f.page == n
  {
  }

  /** A one-page document whose repaired text has no `.!?` and more than five
      characters gives that text as its one fallback fragment. */
  lemma OnePageSentence(page: Page, repairs: Repairs)
    requires |Strip(PageText(page.blocks))| > 0
    requires var t := FixTextSpacing(Strip(PageText(page.blocks)), repairs);
      NoTerminator(t) && |t| > 5
    ensures var t := FixTextSpacing(Strip(PageText(page.blocks)), repairs);
      ExtractSimpleText([page], repairs) == [FallbackFragment(t, 1)]
  {
    var t := FixTextSpacing(Strip(PageText(page.blocks)), repairs);
    SingleSentence(t, 1);
    assert PageSentences(page, 1, repairs) == [FallbackFragment(t, 1)];
    PageLoopSingle(page, 1, SimpleStep(repairs));
  }

  /** The loop works page by page: looping over two runs of pages gives the
      fragments of the first run, then those of the second, numbered on from
      where the first run stopped. Past the page limit both sides stop. */
  lemma {:induction false} PageLoopConcat(a: seq<Page>, b: seq<Page>, pageNum: int, step: (Page, int) -> seq<Fragment>)
    ensures PageLoop(a + b, pageNum, step) == PageLoop(a, pageNum, step) + PageLoop(b, pageNum + |a|, step)
    decreases |a|
  {
    if |a| == 0 {
      EmptyPrefix(a, b);
      EmptyPrefix(PageLoop(a, pageNum, step), PageLoop(b, pageNum, step));
    } else if pageNum > PageLimit {
      assert PageLoop(b, pageNum + |a|, step) == [];
    } else {
      PageLoopConcat(a[1..], b, pageNum + 1, step);
      PageLoopConcatStep(a, b, pageNum, step);
    }
  }

  lemma PageLoopConcatStep(a: seq<Page>, b: seq<Page>, pageNum: int, step: (Page, int) -> seq<Fragment>)
    requires |a| > 0 && pageNum <= PageLimit
    requires PageLoop(a[1..] + b, pageNum + 1, step) ==
      PageLoop(a[1..], pageNum + 1, step) + PageLoop(b, pageNum + 1 + |a[1..]|, step)
    ensures PageLoop(a + b, pageNum, step) == PageLoop(a, pageNum, step) + PageLoop(b, pageNum + |a|, step)
  {
    Uncons(a, b);
    AppendAssoc(step(a[0], pageNum), PageLoop(a[1..], pageNum + 1, step), PageLoop(b, pageNum + |a|, step));
  }

  /** The fallback reads the pages one after the other: the fragments of
      `a + b` are those of `a` followed by those the pages of `b` give under
      their own page numbers, and a page within the limit contributes its
      sentences' fragments as one block, in sentence order. */
  lemma SimpleTextConcat(a: seq<Page>, page: Page, b: seq<Page>, repairs: Repairs)
    ensures ExtractSimpleText(a + b, repairs) ==
      ExtractSimpleText(a, repairs) + PageLoop(b, |a| + 1, SimpleStep(repairs))
    ensures |a| < PageLimit ==>
      ExtractSimpleText(a + [page] + b, repairs) ==
        ExtractSimpleText(a, repairs) + PageSentences(page, |a| + 1, repairs) + PageLoop(b, |a| + 2, SimpleStep(repairs))
  {
    var step := SimpleStep(repairs);
    PageLoopConcat(a, b, 1, step);
    PageLoopConcat(a, [page] + b, 1, step);
    PageLoopConcat([page], b, |a| + 1, step);
    AppendAssoc(a, [page], b);
    if |a| < PageLimit {
      PageLoopSingle(page, |a| + 1, step);
      AppendAssoc(PageLoop(a, 1, step), step(page, |a| + 1), PageLoop(b, |a| + 2, step));
    }
  }

  lemma PageLoopSingle(page: Page, pageNum: int, step: (Page, int) -> seq<Fragment>)
    requires pageNum <= PageLimit
    ensures PageLoop([page], pageNum, step) == step(page, pageNum)
  {
    assert PageLoop([page], pageNum, step) == step(page, pageNum) + PageLoop([], pageNum + 1, step);
  }

  /** A stripped text of more than five characters without `.!?` is one sentence. */
  lemma SingleSentence(t: string, pageNum: int)
    requires Stripped(t) && NoTerminator(t) && |t| > 5
    ensures SentenceFragments(SplitSentences(t), pageNum) == [FallbackFragment(t, pageNum)]
  {
    assert Strip(t) == t;
    assert SplitSentences(t) == [t];
    assert SentenceFragments([t], pageNum) == [FallbackFragment(t, pageNum)] + SentenceFragments([], pageNum);
  }

  /** The fallback reads no page past the 50th: a longer document gives the
      same fragments as its first 50 pages. */
  lemma {:induction false} SimpleTextTruncates(pages: seq<Page>, repairs: Repairs)
    requires |pages| > PageLimit
    ensures ExtractSimpleText(pages, repairs) == ExtractSimpleText(pages[..PageLimit], repairs)
  {
    PageLoopTruncate(pages, 1, SimpleStep(repairs));
  }

  // ------------------------------------------------------------------ primary ingestion, as written

  /** The primary page loop from page number `pageNum` on: a page past the
      limit raises; every other page appends the fragments `step` gives it. */
  function LayoutLoop(pages: seq<Page>, pageNum: int, step: (Page, int) -> seq<Fragment>): (r: Result<seq<Fragment>>)
    ensures r.Failure? <==> |pages| > 0 && pageNum + |pages| - 1 > PageLimit
    ensures r.Failure? ==> r.message == PageLimitMessage
    ensures r.Success? ==> forall i, f :: 0 <= i < |pages| && f in step(pages[i], pageNum + i) ==> f in r.value
    ensures r.Success? ==> (|r.value| == 0 <==> forall i :: 0 <= i < |pages| ==> |step(pages[i], pageNum + i)| == 0)
    decreases |pages|
  {
    if |pages| == 0 then Success([])
    else if pageNum > PageLimit then Failure(PageLimitMessage)
    else
      var rest := LayoutLoop(pages[1..], pageNum + 1, step);
      assert forall i :: 1 <= i < |pages| ==> pages[i] == pages[1..][i - 1];
      if rest.Failure? then rest else Success(step(pages[0], pageNum) + rest.value)
  }

  /** The per-page step as it is indented in the source: the per-container
      code sits under `if page_num > 50:` after the `raise`, so a page adds
      nothing. */
  function NoFragments(page: Page, pageNum: int): seq<Fragment> {
    []
  }

  /** The primary page loop as written adds no fragment, and raises the page
      limit error exactly when a 51st page exists. */
  lemma {:induction false} LayoutAsWritten(pages: seq<Page>)
    ensures LayoutLoop(pages, 1, NoFragments).Failure? <==> |pages| > PageLimit
    ensures LayoutLoop(pages, 1, NoFragments).Success? ==> LayoutLoop(pages, 1, NoFragments).value == []
  {
  }

  /** `extract_text_with_layout`: a raised page limit is caught and an empty
      result is replaced, both by the fallback; as written the loop never
      yields a fragment, so the primary path always returns the fallback. */
  function ExtractWithLayout(pages: seq<Page>, repairs: Repairs): (r: seq<Fragment>)
    ensures r == ExtractSimpleText(pages, repairs)
  {
    match LayoutLoop(pages, 1, NoFragments)
    case Failure(_) => ExtractSimpleText(pages, repairs)
    case Success(elements) =>
      if |elements| == 0 then ExtractSimpleText(pages, repairs) else elements
  }

  // ------------------------------------------------------------------ position and font

  /** `calculate_position`: top above 70% of the page height, bottom at or
      below 30%, middle in between or when the height is unknown. */
  function CalculatePosition(y0: real, pageHeight: Option<real>): (r: Position)
    ensures pageHeight.None? ==> r == Middle
    ensures pageHeight.Some? && pageHeight.value >= 0.0 ==>
      && (r == Top <==> y0 > pageHeight.value * 0.7)
      && (r == Bottom <==> y0 <= pageHeight.value * 0.3)
  {
    match pageHeight
    case None => Middle
    case Some(h) =>
      if y0 > h * 0.7 then Top
      else if y0 > h * 0.3 then Middle
      else Bottom
  }

  /** Bottom < middle < top. */
  function PositionRank(p: Position): nat {
    match p
    case Bottom => 0
    case Middle => 1
    case Top => 2
  }

  /** A block that sits higher on the same page never gets a lower bucket. */
  lemma PositionMonotone(y0: real, y1: real, pageHeight: Option<real>)
    requires y0 <= y1
    ensures PositionRank(CalculatePosition(y0, pageHeight)) <= PositionRank(CalculatePosition(y1, pageHeight))
  {
  }

  const BoldWords: seq<string> := ["bold", "black", "heavy"]
  const ItalicWords: seq<string> := ["italic", "oblique"]

  /** ASCII lower-casing, standing in for `str.lower()`. */
  function ToLower(s: string): string {
    seq(|s|, i requires 0 <= i < |s| => if IsUpper(s[i]) then (s[i] as int + 32) as char else s[i])
  }

  /** Some word of `words` occurs in `s`. */
  predicate ContainsAny(s: string, words: seq<string>) {
    exists w :: w in words && Contains(s, w)
  }

  predicate BoldName(fontName: string) { ContainsAny(ToLower(fontName), BoldWords) }

  predicate ItalicName(fontName: string) { ContainsAny(ToLower(fontName), ItalicWords) }

  datatype FontInfo = FontInfo(size: real, name: string, isBold: bool, isItalic: bool)

  /** `extract_font_info`: the largest character size (0 when none is larger),
      the last character's font name, and whether any character's font name
      marks it bold or italic. */
  function FontInfoOf(chars: seq<CharRecord>): (r: FontInfo)
    ensures r.size >= 0.0
    ensures r.name == (if |chars| == 0 then "" else chars[|chars| - 1].fontName)
    decreases |chars|
  {
    if |chars| == 0 then FontInfo(0.0, "", false, false)
    else
      var prev := FontInfoOf(chars[..|chars| - 1]);
      var c := chars[|chars| - 1];
      FontInfo(if c.size > prev.size then c.size else prev.size, c.fontName,
               prev.isBold || BoldName(c.fontName), prev.isItalic || ItalicName(c.fontName))
  }

  /** The size is the largest character size (or 0), and the flags say
      whether some character's font name is bold or italic. */
  lemma {:induction false} FontInfoFacts(chars: seq<CharRecord>)
    ensures var r := FontInfoOf(chars);
      && (forall c :: c in chars ==> c.size <= r.size)
      && (r.size == 0.0 || exists c :: c in chars && c.size == r.size)
      && (r.isBold <==> exists c :: c in chars && BoldName(c.fontName))
      && (r.isItalic <==> exists c :: c in chars && ItalicName(c.fontName))
  {
    FontSizeFacts(chars);
    FontFlagFacts(chars);
  }

  lemma {:induction false} FontSizeFacts(chars: seq<CharRecord>)
    ensures var r := FontInfoOf(chars);
      && (forall c :: c in chars ==> c.size <= r.size)
      && (r.size == 0.0 || exists c :: c in chars && c.size == r.size)
    decreases |chars|
  {
    if |chars| > 0 {
      var init := chars[..|chars| - 1];
      FontSizeFacts(init);
      assert chars == init + [chars[|chars| - 1]];
    }
  }

  lemma {:induction false} FontFlagFacts(chars: seq<CharRecord>)
    ensures var r := FontInfoOf(chars);
      && (r.isBold <==> exists c :: c in chars && BoldName(c.fontName))
      && (r.isItalic <==> exists c :: c in chars && ItalicName(c.fontName))
    decreases |chars|
  {
    if |chars| > 0 {
      var init := chars[..|chars| - 1];
      FontFlagFacts(init);
      assert chars == init + [chars[|chars| - 1]];
    }
  }

  // ------------------------------------------------------------------ primary ingestion, as intended

  /** `fix_text_spacing` with one document's tables, as the per-container
      code applies it. The code below takes it as a parameter `fix`. */
  function Fixer(repairs: Repairs): string -> string {
    s => FixTextSpacing(s, repairs)
  }

  /** The per-container body of the primary loop: a container whose stripped
      text is longer than one character becomes a repaired, positioned fragment. */
  function BlockFragment(b: Block, pageNum: int, pageHeight: Option<real>, fix: string -> string): (r: Option<Fragment>)
    ensures r.Some? <==> HasText(b)
    ensures r.Some? ==> r.value.page == pageNum
  {
    var text := Strip(b.text);
    if |text| > 1 then
      var info := FontInfoOf(b.chars);
      Some(Fragment(fix(text), pageNum, b.x0, b.y0, b.x1, b.y1,
                    info.size, info.name, info.isBold, info.isItalic,
                    CalculatePosition(b.y0, pageHeight)))
    else None
  }

  /** The container holds real text: its stripped text is longer than one character. */
  predicate HasText(b: Block) { |Strip(b.text)| > 1 }

  /** Some container of `blocks` holds real text. */
  predicate AnyText(blocks: seq<Block>) {
    exists j :: 0 <= j < |blocks| && HasText(blocks[j])
  }

  /** Every container of `blocks` with real text has its fragment in `r`. */
  predicate Covers(blocks: seq<Block>, pageNum: int, pageHeight: Option<real>, fix: string -> string, r: seq<Fragment>) {
    forall j :: 0 <= j < |blocks| && HasText(blocks[j]) ==>
      BlockFragment(blocks[j], pageNum, pageHeight, fix).value in r
  }

  /** The per-container body of the primary loop on one numbered page. */
  function BlockAt(pageNum: int, pageHeight: Option<real>, fix: string -> string): Block -> Option<Fragment> {
    b => BlockFragment(b, pageNum, pageHeight, fix)
  }

  /** A container yields a fragment exactly when it holds real text, so the
      generic statements about `BlockAt` are statements about such containers. */
  lemma {:induction false} CoversPresent(blocks: seq<Block>, pageNum: int, pageHeight: Option<real>, fix: string -> string,
                                         r: seq<Fragment>)
    requires AllPresent(blocks, BlockAt(pageNum, pageHeight, fix), r)
    ensures Covers(blocks, pageNum, pageHeight, fix, r)
  {
    var g := BlockAt(pageNum, pageHeight, fix);
    forall j | 0 <= j < |blocks| && HasText(blocks[j])
      ensures BlockFragment(blocks[j], pageNum, pageHeight, fix).value in r
    {
      assert g(blocks[j]) == BlockFragment(blocks[j], pageNum, pageHeight, fix);
    }
  }

  lemma {:induction false} NonePresentText(blocks: seq<Block>, pageNum: int, pageHeight: Option<real>, fix: string -> string)
    ensures NonePresent(blocks, BlockAt(pageNum, pageHeight, fix)) <==> !AnyText(blocks)
  {
    var g := BlockAt(pageNum, pageHeight, fix);
    if AnyText(blocks) {
      var j :| 0 <= j < |blocks| && HasText(blocks[j]);
      assert g(blocks[j]) == BlockFragment(blocks[j], pageNum, pageHeight, fix);
    } else {
      forall j | 0 <= j < |blocks|
        ensures g(blocks[j]).None?
      {
        assert g(blocks[j]) == BlockFragment(blocks[j], pageNum, pageHeight, fix);
      }
    }
  }

  /** The fragments of one page's containers, in order. */
  function PageBlocks(blocks: seq<Block>, pageNum: int, pageHeight: Option<real>, fix: string -> string): (r: seq<Fragment>)
    ensures Covers(blocks, pageNum, pageHeight, fix, r)
    ensures forall f :: f in r ==>
      exists j :: 0 <= j < |blocks| && HasText(blocks[j]) && f == BlockFragment(blocks[j], pageNum, pageHeight, fix).value
    ensures |r| == 0 <==> !AnyText(blocks)
  {
    var r := Present(blocks, BlockAt(pageNum, pageHeight, fix));
    CoversPresent(blocks, pageNum, pageHeight, fix, r);
    PageBlocksFrom(blocks, pageNum, pageHeight, fix);
    NonePresentText(blocks, pageNum, pageHeight, fix);
    r
  }

  lemma {:induction false} PageBlocksFrom(blocks: seq<Block>, pageNum: int, pageHeight: Option<real>, fix: string -> string)
    ensures forall f :: f in Present(blocks, BlockAt(pageNum, pageHeight, fix)) ==>
      exists j :: 0 <= j < |blocks| && HasText(blocks[j]) && f == BlockFragment(blocks[j], pageNum, pageHeight, fix).value
  {
    var g := BlockAt(pageNum, pageHeight, fix);
    forall f | f in Present(blocks, g)
      ensures exists j :: 0 <= j < |blocks| && HasText(blocks[j]) && f == BlockFragment(blocks[j], pageNum, pageHeight, fix).value
    {
      var j :| 0 <= j < |blocks| && g(blocks[j]).Some? && f == g(blocks[j]).value;
      assert g(blocks[j]) == BlockFragment(blocks[j], pageNum, pageHeight, fix);
    }
  }

  /** When every page's step is the present values of a per-container
      function, a successful loop holds every value that function gives on
      every page, and is empty exactly when it gives none on any page. */
  lemma {:induction false} LayoutLoopPresent(pages: seq<Page>, pageNum: int, step: (Page, int) -> seq<Fragment>,
                                             at: (Page, int) -> (Block -> Option<Fragment>))
    requires forall p, n :: step(p, n) == Present(p.blocks, at(p, n))
    ensures var r := LayoutLoop(pages, pageNum, step);
      r.Success? ==> forall i :: 0 <= i < |pages| ==> AllPresent(pages[i].blocks, at(pages[i], pageNum + i), r.value)
    ensures var r := LayoutLoop(pages, pageNum, step);
      r.Success? ==> (|r.value| == 0 <==> forall i :: 0 <= i < |pages| ==> NonePresent(pages[i].blocks, at(pages[i], pageNum + i)))
  {
    var r := LayoutLoop(pages, pageNum, step);
    if r.Success? {
      forall i | 0 <= i < |pages|
        ensures AllPresent(pages[i].blocks, at(pages[i], pageNum + i), r.value)
      {
        AllPresentSubset(pages[i].blocks, at(pages[i], pageNum + i), step(pages[i], pageNum + i), r.value);
      }
    }
  }

  /** Every container of the page with real text has its fragment, numbered `pageNum`, in `r`. */
  function PageCovers(fix: string -> string): (Page, int, seq<Fragment>) -> bool {
    (page: Page, pageNum: int, r: seq<Fragment>) => Covers(page.blocks, pageNum, page.height, fix, r)
  }

  /** Some container of the page holds real text. */
  function PageHasText(): Page -> bool {
    (page: Page) => AnyText(page.blocks)
  }

  /** Some container on some page holds real text. */
  predicate HasTextBlock(pages: seq<Page>) {
    exists i :: 0 <= i < |pages| && PageHasText()(pages[i])
  }

  /** Every page's containers with real text have their fragments, numbered
      from `pageNum`, in `r`. */
  predicate CoversPages(pages: seq<Page>, pageNum: int, fix: string -> string, r: seq<Fragment>) {
    forall i :: 0 <= i < |pages| ==> PageCovers(fix)(pages[i], pageNum + i, r)
  }

  /** One page's step of the primary loop with the per-container code reachable. */
  function BlockStep(fix: string -> string): (Page, int) -> seq<Fragment> {
    (page: Page, pageNum: int) => PageBlocks(page.blocks, pageNum, page.height, fix)
  }

  /** The per-container function of each numbered page. */
  function PageBlockAt(fix: string -> string): (Page, int) -> (Block -> Option<Fragment>) {
    (page: Page, pageNum: int) => BlockAt(pageNum, page.height, fix)
  }

  /** The primary page loop with the per-container code reachable: pages up to
      the limit contribute their containers' fragments; page 51 raises. */
  function LayoutPages(pages: seq<Page>, pageNum: int, fix: string -> string): (r: Result<seq<Fragment>>)
    ensures r.Failure? <==> |pages| > 0 && pageNum + |pages| - 1 > PageLimit
    ensures r.Success? ==> CoversPages(pages, pageNum, fix, r.value)
    ensures r.Success? ==> (|r.value| == 0 <==> !HasTextBlock(pages))
  {
    LayoutPagesFacts(pages, pageNum, fix);
    LayoutLoop(pages, pageNum, BlockStep(fix))
  }

  lemma {:induction false} BlockStepPresent(fix: string -> string)
    ensures forall p, n :: BlockStep(fix)(p, n) == Present(p.blocks, PageBlockAt(fix)(p, n))
  {
    forall p: Page, n: int
      ensures BlockStep(fix)(p, n) == Present(p.blocks, PageBlockAt(fix)(p, n))
    {
      assert PageBlockAt(fix)(p, n) == BlockAt(n, p.height, fix);
    }
  }

  lemma {:induction false} PagePresent(fix: string -> string)
    ensures forall p: Page, n: int, r: seq<Fragment> :: AllPresent(p.blocks, PageBlockAt(fix)(p, n), r) ==> PageCovers(fix)(p, n, r)
    ensures forall p: Page, n: int :: NonePresent(p.blocks, PageBlockAt(fix)(p, n)) <==> !PageHasText()(p)
  {
    forall p: Page, n: int, r: seq<Fragment> | AllPresent(p.blocks, PageBlockAt(fix)(p, n), r)
      ensures PageCovers(fix)(p, n, r)
    {
      assert PageBlockAt(fix)(p, n) == BlockAt(n, p.height, fix);
      CoversPresent(p.blocks, n, p.height, fix, r);
    }
    forall p: Page, n: int
      ensures NonePresent(p.blocks, PageBlockAt(fix)(p, n)) <==> !PageHasText()(p)
    {
      assert PageBlockAt(fix)(p, n) == BlockAt(n, p.height, fix);
      NonePresentText(p.blocks, n, p.height, fix);
    }
  }

  /** `LayoutLoopPresent` read through page-level facts that follow from presence. */
  lemma {:induction false} LayoutLoopFacts(pages: seq<Page>, pageNum: int, step: (Page, int) -> seq<Fragment>,
                                           at: (Page, int) -> (Block -> Option<Fragment>),
                                           cov: (Page, int, seq<Fragment>) -> bool, any: Page -> bool)
    requires forall p, n :: step(p, n) == Present(p.blocks, at(p, n))
    requires forall p: Page, n: int, r: seq<Fragment> :: AllPresent(p.blocks, at(p, n), r) ==> cov(p, n, r)
    requires forall p: Page, n: int :: NonePresent(p.blocks, at(p, n)) <==> !any(p)
    ensures var r := LayoutLoop(pages, pageNum, step);
      r.Success? ==> (forall i :: 0 <= i < |pages| ==> cov(pages[i], pageNum + i, r.value))
                     && (|r.value| == 0 <==> forall i :: 0 <= i < |pages| ==> !any(pages[i]))
  {
    LayoutLoopPresent(pages, pageNum, step, at);
  }

  lemma {:induction false} LayoutPagesFacts(pages: seq<Page>, pageNum: int, fix: string -> string)
    ensures var r := LayoutLoop(pages, pageNum, BlockStep(fix));
      r.Success? ==> CoversPages(pages, pageNum, fix, r.value) && (|r.value| == 0 <==> !HasTextBlock(pages))
  {
    BlockStepPresent(fix);
    PagePresent(fix);
    LayoutLoopFacts(pages, pageNum, BlockStep(fix), PageBlockAt(fix), PageCovers(fix), PageHasText());
  }

  /** `extract_text_with_layout` as evidently intended: a document of at most
      50 pages with a container of real text yields one fragment per such
      container, carrying its own font size, weight and position; a longer
      document, or one without such a container, gets the fallback. */
  function ExtractWithLayoutIntended(pages: seq<Page>, repairs: Repairs): (r: seq<Fragment>)
    ensures |pages| > PageLimit ==> r == ExtractSimpleText(pages, repairs)
    ensures |pages| <= PageLimit && !HasTextBlock(pages) ==> r == ExtractSimpleText(pages, repairs)
    ensures |pages| <= PageLimit ==> CoversPages(pages, 1, Fixer(repairs), r)
  {
    match LayoutPages(pages, 1, Fixer(repairs))
    case Failure(_) => ExtractSimpleText(pages, repairs)
    case Success(elements) =>
      if |elements| == 0 then ExtractSimpleText(pages, repairs) else elements
  }

  lemma {:induction false} CoversPageAt(pages: seq<Page>, pageNum: int, fix: string -> string, r: seq<Fragment>, i: int)
    requires CoversPages(pages, pageNum, fix, r) && 0 <= i < |pages|
    ensures Covers(pages[i].blocks, pageNum + i, pages[i].height, fix, r)
  {
    assert PageCovers(fix)(pages[i], pageNum + i, r);
  }

  lemma {:induction false} CoversAt(pages: seq<Page>, fix: string -> string, r: seq<Fragment>, i: int, j: int)
    requires CoversPages(pages, 1, fix, r)
    requires 0 <= i < |pages| && 0 <= j < |pages[i].blocks| && HasText(pages[i].blocks[j])
    ensures BlockFragment(pages[i].blocks[j], i + 1, pages[i].height, fix).value in r
  {
    CoversPageAt(pages, 1, fix, r, i);
  }

  /** Under the intended reading, every container with real text on every
      page of a document within the page limit has its fragment in the result. */
  lemma {:induction false} IntendedKeepsBlock(pages: seq<Page>, repairs: Repairs, i: int, j: int)
    requires |pages| <= PageLimit
    requires 0 <= i < |pages| && 0 <= j < |pages[i].blocks| && HasText(pages[i].blocks[j])
    ensures BlockFragment(pages[i].blocks[j], i + 1, pages[i].height, Fixer(repairs)).value
            in ExtractWithLayoutIntended(pages, repairs)
  {
    CoversAt(pages, Fixer(repairs), ExtractWithLayoutIntended(pages, repairs), i, j);
  }

  /** With the document's tables, a container's fragment text is repaired:
      stripped, with single spaces only, and no whitespace before `.,!?`. */
  lemma {:induction false} BlockFragmentText(b: Block, pageNum: int, pageHeight: Option<real>, repairs: Repairs)
    requires HasText(b)
    ensures Stripped(BlockFragment(b, pageNum, pageHeight, Fixer(repairs)).value.text)
    ensures SingleSpaced(BlockFragment(b, pageNum, pageHeight, Fixer(repairs)).value.text)
    ensures NoPair(BlockFragment(b, pageNum, pageHeight, Fixer(repairs)).value.text, IsSpace, IsPunct)
  {
    assert BlockFragment(b, pageNum, pageHeight, Fixer(repairs)).value.text == FixTextSpacing(Strip(b.text), repairs);
  }

  /** A container with real text near the top of the page, with a character
      larger than 12 points, becomes a top-of-page fragment larger than 12 points. */
  lemma {:induction false} BlockFragmentLayout(b: Block, height: real, fix: string -> string)
    requires HasText(b)
    requires exists c :: c in b.chars && c.size > 12.0
    requires height >= 0.0 && b.y0 > height * 0.7
    ensures BlockFragment(b, 1, Some(height), fix).value.fontSize > 12.0
    ensures BlockFragment(b, 1, Some(height), fix).value.position == Top
  {
    FontInfoFacts(b.chars);
    assert BlockFragment(b, 1, Some(height), fix).value.fontSize == FontInfoOf(b.chars).size;
    assert CalculatePosition(b.y0, Some(height)) == Top;
  }

  /** The fallback path yields only 12-point fragments. */
  lemma {:induction false} SimpleTextSize(pages: seq<Page>, repairs: Repairs, f: Fragment)
    requires f in ExtractSimpleText(pages, repairs)
    ensures f.fontSize == 12.0
  {
    assert IsFallbackFragment(f);
  }

  /** As written, the primary path drops every container's layout: on a
      one-page document whose only container holds real text near the top of
      the page in a font larger than 12 points (say "Introduction" in 20-point
      Helvetica-Bold at y0 = 700 on a 792-point page), the intended reading
      yields that container as a top-of-page fragment in its own size, while
      the written code returns only fallback fragments, all at size 12 with
      no position. */
  lemma {:induction false} LayoutIgnoredAsWritten(b: Block, height: real)
    requires HasText(b)
    requires exists c :: c in b.chars && c.size > 12.0
    requires height >= 0.0 && b.y0 > height * 0.7
    ensures BlockFragment(b, 1, Some(height), Fixer(NoRepairs)).Some?
    ensures BlockFragment(b, 1, Some(height), Fixer(NoRepairs)).value.fontSize > 12.0
    ensures BlockFragment(b, 1, Some(height), Fixer(NoRepairs)).value.position == Top
    ensures BlockFragment(b, 1, Some(height), Fixer(NoRepairs)).value in ExtractWithLayoutIntended([Page(Some(height), [b])], NoRepairs)
    ensures BlockFragment(b, 1, Some(height), Fixer(NoRepairs)).value !in ExtractWithLayout([Page(Some(height), [b])], NoRepairs)
  {
    var pages := [Page(Some(height), [b])];
    var intended := BlockFragment(b, 1, Some(height), Fixer(NoRepairs));
    BlockFragmentLayout(b, height, Fixer(NoRepairs));
    assert pages[0].blocks[0] == b && pages[0].height == Some(height);
    IntendedKeepsBlock(pages, NoRepairs, 0, 0);
    if intended.value in ExtractWithLayout(pages, NoRepairs) {
      SimpleTextSize(pages, NoRepairs, intended.value);
    }
  }
}

=== FILE: outline.dfy ===
/**
  Title choice and the result envelope (`extract_title` and `extract_outline`
  in utils.py), and what the whole pipeline yields on the fallback's fragments.
  The wall-clock check is the parameter `overBudget`: whether more than ten
  seconds passed while the outline was computed.
*/
module Outline {
  import opened Base
  import opened Text
  import opened Ingest
  import opened Classifier
  import opened Headings

  const DefaultTitle: string := "Untitled Document"
  const ErrorTitle: string := "Error processing PDF"
  const TimeoutMessage: string := "PDF processing exceeded 10 second limit"

  // ------------------------------------------------------------------ title

  /** `t` is the text of the first heading of level `l`. */
  predicate IsFirstOfLevel(hs: seq<Heading>, l: Level, t: string) {
    exists i :: 0 <= i < |hs| && hs[i].level == l && hs[i].text == t
      && forall j :: 0 <= j < i ==> hs[j].level != l
  }

  predicate HasLevel(hs: seq<Heading>, l: Level) {
    exists i :: 0 <= i < |hs| && hs[i].level == l
  }

  /** A fragment that may serve as the title when no heading does. */
  predicate Significant(f: Fragment) {
    3 < |f.text| < 100 && f.position == Top && f.fontSize > 0.0
  }

  /** `t` is the text of the first significant fragment. */
  predicate IsFirstSignificant(fs: seq<Fragment>, t: string) {
    exists i :: 0 <= i < |fs| && Significant(fs[i]) && fs[i].text == t
      && forall j :: 0 <= j < i ==> !Significant(fs[j])
  }

  predicate HasSignificant(fs: seq<Fragment>) {
    exists i :: 0 <= i < |fs| && Significant(fs[i])
  }

  /** The text of the first heading of level `l`, if there is one. */
  function FirstOfLevel(hs: seq<Heading>, l: Level): (r: Option<string>)
    ensures r.None? <==> !HasLevel(hs, l)
    ensures r.Some? ==> IsFirstOfLevel(hs, l, r.value)
    decreases |hs|
  {
    if |hs| == 0 then None
    else if hs[0].level == l then Some(hs[0].text)
    else
      var rest := FirstOfLevel(hs[1..], l);
      assert forall i :: 1 <= i < |hs| ==> hs[i] == hs[1..][i - 1];
      if rest.Some? then
        var i :| 0 <= i < |hs[1..]| && hs[1..][i].level == l && hs[1..][i].text == rest.value
          && forall j :: 0 <= j < i ==> hs[1..][j].level != l;
        assert hs[i + 1] == hs[1..][i];
        rest
      else rest
  }

  /** The text of the first significant fragment, if there is one. */
  function FirstSignificant(fs: seq<Fragment>): (r: Option<string>)
    ensures r.None? <==> !HasSignificant(fs)
    ensures r.Some? ==> IsFirstSignificant(fs, r.value)
    decreases |fs|
  {
    if |fs| == 0 then None
    else if Significant(fs[0]) then Some(fs[0].text)
    else
      var rest := FirstSignificant(fs[1..]);
      assert forall i :: 1 <= i < |fs| ==> fs[i] == fs[1..][i - 1];
      if rest.Some? then
        var i :| 0 <= i < |fs[1..]| && Significant(fs[1..][i]) && fs[1..][i].text == rest.value
          && forall j :: 0 <= j < i ==> !Significant(fs[1..][j]);
        assert fs[i + 1] == fs[1..][i];
        rest
      else rest
  }

  /** `extract_title`: the first H1, else the first H2, else the first
      significant fragment, else the default title. */
  function ExtractTitle(hs: seq<Heading>, fs: seq<Fragment>): (r: string)
    ensures HasLevel(hs, H1) ==> IsFirstOfLevel(hs, H1, r)
    ensures !HasLevel(hs, H1) && HasLevel(hs, H2) ==> IsFirstOfLevel(hs, H2, r)
    ensures !HasLevel(hs, H1) && !HasLevel(hs, H2) && HasSignificant(fs) ==> IsFirstSignificant(fs, r)
    ensures !HasLevel(hs, H1) && !HasLevel(hs, H2) && !HasSignificant(fs) ==> r == DefaultTitle
  {
    match FirstOfLevel(hs, H1)
    case Some(t) => t
    case None =>
      match FirstOfLevel(hs, H2)
      case Some(t) => t
      case None =>
        match FirstSignificant(fs)
        case Some(t) => t
        case None => DefaultTitle
  }

  // ------------------------------------------------------------------ envelope

  /** One outline entry: a heading without its sort fields. */
  datatype OutlineEntry = OutlineEntry(level: Level, text: string, page: int)

  /** The returned document: title and outline, or the error envelope. */
  datatype Outcome =
    | Extracted(title: string, outline: seq<OutlineEntry>)
    | Failed(title: string, outline: seq<OutlineEntry>, error: string)

  /** The outline loop: one entry per heading, same order. */
  function Project(hs: seq<Heading>): (r: seq<OutlineEntry>)
    ensures |r| == |hs|
    ensures forall i :: 0 <= i < |hs| ==>
      r[i].level == hs[i].level && r[i].text == hs[i].text && r[i].page == hs[i].page
  {
    seq(|hs|, i requires 0 <= i < |hs| => OutlineEntry(hs[i].level, hs[i].text, hs[i].page))
  }

  /** Headings, title and outline computed from the fragments. */
  function OutlineOf(fs: seq<Fragment>): (r: Outcome)
    ensures r.Extracted?
    ensures r.title == ExtractTitle(Analyze(fs), fs)
    ensures r.outline == Project(Analyze(fs))
  {
    var headings := Analyze(fs);
    Extracted(ExtractTitle(headings, fs), Project(headings))
  }

  /** `extract_outline`: the outline of the primary ingestion's fragments, or
      the error envelope when the ten-second budget was exceeded. */
  function ExtractOutline(pages: seq<Page>, repairs: Repairs, overBudget: bool): (r: Outcome)
    ensures r.Failed? <==> overBudget
    ensures r.Failed? ==> r.title == ErrorTitle && r.outline == [] && r.error == TimeoutMessage
    ensures r.Extracted? ==> r == OutlineOf(ExtractSimpleText(pages, repairs))
  {
    var result := OutlineOf(ExtractWithLayout(pages, repairs));
    if overBudget then Failed(ErrorTitle, [], TimeoutMessage) else result
  }

  /** `extract_outline` over the primary ingestion as intended. */
  function ExtractOutlineIntended(pages: seq<Page>, repairs: Repairs, overBudget: bool): (r: Outcome)
    ensures r.Failed? <==> overBudget
    ensures r.Failed? ==> r.title == ErrorTitle && r.outline == [] && r.error == TimeoutMessage
    ensures r.Extracted? ==> r == OutlineOf(ExtractWithLayoutIntended(pages, repairs))
  {
    var result := OutlineOf(ExtractWithLayoutIntended(pages, repairs));
    if overBudget then Failed(ErrorTitle, [], TimeoutMessage) else result
  }

  /** Under the intended reading, within the time budget, a container with
      real text on a page of a document within the page limit, whose fragment
      has 2 to 200 characters and the document's largest positive size, is an
      H1 entry of the outline with its repaired text and page number. */
  lemma IntendedLargestIsH1(pages: seq<Page>, repairs: Repairs, i: int, j: int)
    requires |pages| <= PageLimit
    requires 0 <= i < |pages| && 0 <= j < |pages[i].blocks| && HasText(pages[i].blocks[j])
    requires var f := BlockFragment(pages[i].blocks[j], i + 1, pages[i].height, Fixer(repairs)).value;
      LengthInRange(f.text) && f.fontSize > 0.0
      && forall g :: g in ExtractWithLayoutIntended(pages, repairs) ==> g.fontSize <= f.fontSize
    ensures var f := BlockFragment(pages[i].blocks[j], i + 1, pages[i].height, Fixer(repairs)).value;
      OutlineEntry(H1, f.text, i + 1) in ExtractOutlineIntended(pages, repairs, false).outline
  {
    var fs := ExtractWithLayoutIntended(pages, repairs);
    var f := BlockFragment(pages[i].blocks[j], i + 1, pages[i].height, Fixer(repairs)).value;
    IntendedKeepsBlock(pages, repairs, i, j);
    LargestIsEntry(fs, f);
  }

  /** A fragment of 2 to 200 characters at the largest positive size gives an
      H1 entry of the outline. */
  lemma LargestIsEntry(fs: seq<Fragment>, f: Fragment)
    requires f in fs && LengthInRange(f.text) && f.fontSize > 0.0
    requires forall g :: g in fs ==> g.fontSize <= f.fontSize
    ensures OutlineEntry(H1, f.text, f.page) in OutlineOf(fs).outline
  {
    MaxSizeIsH1(fs, f);
    var hs := Analyze(fs);
    var h :| h in hs && h.level == H1 && h.text == f.text && h.page == f.page;
    var k :| 0 <= k < |hs| && hs[k] == h;
    assert Project(hs)[k] == OutlineEntry(H1, f.text, f.page);
  }

  // ------------------------------------------------------------------ on fallback fragments

  /** The outline entries the fallback's fragments should give: one H1 per
      fragment of at most 200 characters, in order. */
  function FallbackEntries(fs: seq<Fragment>): seq<OutlineEntry>
    decreases |fs|
  {
    if |fs| == 0 then []
    else (if |fs[0].text| <= 200 then [OutlineEntry(H1, fs[0].text, fs[0].page)] else [])
         + FallbackEntries(fs[1..])
  }

  /** The headings the fallback's fragments give, in order. */
  function FallbackHeadings(fs: seq<Fragment>): seq<Heading>
    decreases |fs|
  {
    if |fs| == 0 then []
    else (if |fs[0].text| <= 200 then [Heading(H1, fs[0].text, fs[0].page, 12.0, Middle)] else [])
         + FallbackHeadings(fs[1..])
  }

  /** All fallback fragments share the size 12, which is then the largest,
      so each one within the length filter is an H1. */
  lemma {:induction false} ClassifyFallback(fs: seq<Fragment>, st: Stats)
    requires forall f :: f in fs ==> SentenceShaped(f)
    requires st.max == 12.0
    ensures ClassifyAll(fs, st) == FallbackHeadings(fs)
    decreases |fs|
  {
    if |fs| > 0 {
      assert fs[0] in fs;
      assert forall f :: f in fs[1..] ==> f in fs;
      RatioAbove(fs[0].fontSize, st.max, 0.8);
      ClassifyFallback(fs[1..], st);
    }
  }

  /** Every fallback heading is an H1 at size 12 in the middle of a page no
      earlier than `from` when no fragment is on an earlier page. */
  lemma {:induction false} FallbackHeadingsShape(fs: seq<Fragment>, from: int)
    requires forall f :: f in fs ==> from <= f.page
    ensures forall h :: h in FallbackHeadings(fs) ==>
      h.fontSize == 12.0 && h.position == Middle && h.level == H1 && from <= h.page
    decreases |fs|
  {
    if |fs| > 0 {
      assert fs[0] in fs;
      assert forall f :: f in fs[1..] ==> f in fs;
      FallbackHeadingsShape(fs[1..], from);
    }
  }

  lemma PageOrderedTail(fs: seq<Fragment>)
    requires |fs| > 0 && PageOrdered(fs)
    ensures PageOrdered(fs[1..])
    ensures forall f :: f in fs[1..] ==> fs[0].page <= f.page
  {
    var tail := fs[1..];
    forall i, j | 0 <= i < j < |tail| ensures tail[i].page <= tail[j].page {
      assert tail[i] == fs[i + 1] && tail[j] == fs[j + 1];
    }
    forall f | f in tail ensures fs[0].page <= f.page {
      var k :| 0 <= k < |tail| && tail[k] == f;
      assert fs[k + 1] == f;
    }
  }

  /** The fallback headings keep the fragments' page order and share size and
      position, so they are already sorted. */
  lemma {:induction false} FallbackHeadingsSorted(fs: seq<Fragment>)
    requires PageOrdered(fs)
    ensures Sorted(FallbackHeadings(fs))
    decreases |fs|
  {
    if |fs| > 0 {
      var tail := fs[1..];
      PageOrderedTail(fs);
      FallbackHeadingsSorted(tail);
      FallbackHeadingsShape(tail, fs[0].page);
      var here := if |fs[0].text| <= 200 then [Heading(H1, fs[0].text, fs[0].page, 12.0, Middle)] else [];
      var rest := FallbackHeadings(tail);
      SortedPrepend(here, rest, fs[0].page);
    }
  }

  lemma SortedPrepend(here: seq<Heading>, rest: seq<Heading>, page: int)
    requires |here| <= 1
    requires forall h :: h in here ==> h.page == page && h.fontSize == 12.0 && h.position == Middle
    requires forall h :: h in rest ==> h.fontSize == 12.0 && h.position == Middle && page <= h.page
    requires Sorted(rest)
    ensures Sorted(here + rest)
  {
    var s := here + rest;
    forall i, j | 0 <= i < j < |s| ensures !KeyLess(Key(s[j]), Key(s[i])) {
      if i >= |here| {
        assert s[i] == rest[i - |here|] && s[j] == rest[j - |here|];
      } else {
        assert s[i] in here;
        assert s[j] == rest[j - |here|];
        assert s[j] in rest;
      }
    }
  }

  lemma {:induction false} ProjectFallback(fs: seq<Fragment>)
    ensures Project(FallbackHeadings(fs)) == FallbackEntries(fs)
    decreases |fs|
  {
    if |fs| > 0 {
      ProjectFallback(fs[1..]);
      var here := if |fs[0].text| <= 200 then [Heading(H1, fs[0].text, fs[0].page, 12.0, Middle)] else [];
      ProjectConcat(here, FallbackHeadings(fs[1..]));
    }
  }

  lemma ProjectConcat(a: seq<Heading>, b: seq<Heading>)
    ensures Project(a + b) == Project(a) + Project(b)
  {
    assert forall i :: 0 <= i < |a + b| ==> Project(a + b)[i] == (Project(a) + Project(b))[i];
  }

  /** On the fallback's fragments every heading is an H1 and the outline is
      exactly one entry per fragment of at most 200 characters, in order. */
  lemma FallbackAnalyze(fs: seq<Fragment>)
    requires forall f :: f in fs ==> SentenceShaped(f)
    requires PageOrdered(fs)
    ensures Analyze(fs) == FallbackHeadings(fs)
  {
    if |fs| > 0 {
      assert fs[0] in fs;
      var st := SizeStats(fs).value;
      assert st.max == 12.0 by {
        var g :| g in fs && g.fontSize == st.max;
      }
      ClassifyFallback(fs, st);
      FallbackHeadingsSorted(fs);
      SortSortedIsIdentity(FallbackHeadings(fs));
    }
  }

  /** The fallback fragments have position middle, so none can be the title. */
  lemma FallbackNotSignificant(fs: seq<Fragment>)
    requires forall f :: f in fs ==> SentenceShaped(f)
    ensures !HasSignificant(fs)
  {
    forall i | 0 <= i < |fs| ensures !Significant(fs[i]) {
      assert fs[i] in fs;
    }
  }

  /** Title and outline of the fallback's fragments. */
  lemma FallbackOutlineOf(fs: seq<Fragment>)
    requires forall f :: f in fs ==> SentenceShaped(f)
    requires PageOrdered(fs)
    ensures OutlineOf(fs).outline == FallbackEntries(fs)
    ensures OutlineOf(fs).title == (if |FallbackEntries(fs)| == 0 then DefaultTitle else FallbackEntries(fs)[0].text)
    ensures Sorted(FallbackHeadings(fs))
    ensures FallbackEntries(fs) == Project(FallbackHeadings(fs))
  {
    FallbackAnalyze(fs);
    FallbackHeadingsSorted(fs);
    ProjectFallback(fs);
    FallbackNotSignificant(fs);
    FallbackTitle(FallbackHeadings(fs), fs);
  }

  lemma FallbackTitle(hs: seq<Heading>, fs: seq<Fragment>)
    requires !HasSignificant(fs)
    requires forall h :: h in hs ==> h.level == H1
    ensures ExtractTitle(hs, fs) == (if |hs| == 0 then DefaultTitle else hs[0].text)
  {
    if |hs| > 0 {
      assert hs[0] in hs;
      assert IsFirstOfLevel(hs, H1, hs[0].text);
    }
  }

  /** End to end, within the time budget: the outline is the fallback's
      sentences of at most 200 characters, each an H1, in page order; the
      title is the first entry's text, or the default when there is none. */
  lemma FallbackOutline(pages: seq<Page>, repairs: Repairs)
    ensures
      var r := ExtractOutline(pages, repairs, false);
      && r.Extracted?
      && r.outline == FallbackEntries(ExtractSimpleText(pages, repairs))
      && (forall e :: e in r.outline ==> e.level == H1)
      && (forall i, j :: 0 <= i < j < |r.outline| ==> r.outline[i].page <= r.outline[j].page)
      && r.title == (if |r.outline| == 0 then DefaultTitle else r.outline[0].text)
  {
    var fs := ExtractSimpleText(pages, repairs);
    FallbackOutlineOf(fs);
    FallbackEntriesFacts(fs);
  }

  lemma FallbackEntriesFacts(fs: seq<Fragment>)
    requires forall f :: f in fs ==> SentenceShaped(f)
    requires Sorted(FallbackHeadings(fs))
    requires FallbackEntries(fs) == Project(FallbackHeadings(fs))
    ensures forall e :: e in FallbackEntries(fs) ==> e.level == H1
    ensures forall i, j :: 0 <= i < j < |FallbackEntries(fs)| ==> FallbackEntries(fs)[i].page <= FallbackEntries(fs)[j].page
  {
    var hs := FallbackHeadings(fs);
    var es := FallbackEntries(fs);
    forall i, j | 0 <= i < j < |es| ensures es[i].page <= es[j].page {
      SortedMeans(hs, i, j);
    }
    FallbackEntriesLevel(fs);
  }

  lemma {:induction false} FallbackEntriesLevel(fs: seq<Fragment>)
    ensures forall e :: e in FallbackEntries(fs) ==> e.level == H1
    decreases |fs|
  {
    if |fs| > 0 {
      FallbackEntriesLevel(fs[1..]);
    }
  }

  /** A one-page document whose repaired text is a single sentence of 6 to 200
      characters without `.!?` gets that sentence as its title and as the one
      H1 entry of its outline. */
  lemma OnePageOutline(page: Page, repairs: Repairs)
    requires |Strip(PageText(page.blocks))| > 0
    requires var t := FixTextSpacing(Strip(PageText(page.blocks)), repairs);
      NoTerminator(t) && 5 < |t| <= 200
    ensures var t := FixTextSpacing(Strip(PageText(page.blocks)), repairs);
      ExtractOutline([page], repairs, false) == Extracted(t, [OutlineEntry(H1, t, 1)])
  {
    OnePageSentence(page, repairs);
    var t := FixTextSpacing(Strip(PageText(page.blocks)), repairs);
    OneFragmentOutline(FallbackFragment(t, 1));
  }

  /** The outline of one fallback fragment of at most 200 characters. */
  lemma OneFragmentOutline(f: Fragment)
    requires SentenceShaped(f) && |f.text| <= 200
    ensures OutlineOf([f]) == Extracted(f.text, [OutlineEntry(H1, f.text, f.page)])
  {
    assert PageOrdered([f]);
    FallbackOutlineOf([f]);
    assert FallbackEntries([f]) == [OutlineEntry(H1, f.text, f.page)] + FallbackEntries([]);
  }

  /** A document from which the fallback gets no sentence has the default title
      and an empty outline, without an error. */
  lemma EmptyDocument(pages: seq<Page>, repairs: Repairs)
    requires ExtractSimpleText(pages, repairs) == []
    ensures ExtractOutline(pages, repairs, false) == Extracted(DefaultTitle, [])
  {
    FallbackOutline(pages, repairs);
  }

  /** A document longer than the page limit is not an error: it gets the
      outline of its first 50 pages. */
  lemma PageLimitFallsBack(pages: seq<Page>, repairs: Repairs)
    requires |pages| > PageLimit
    ensures ExtractOutline(pages, repairs, false).Extracted?
    ensures ExtractOutline(pages, repairs, false) == ExtractOutline(pages[..PageLimit], repairs, false)
  {
    SimpleTextTruncates(pages, repairs);
  }

  /** A single bold "1. Introduction" at the document's largest size, at the
      top of page 1, is the whole outline and the title. */
  lemma SingleHeadingScenario()
    ensures
      var f := Fragment("1. Introduction", 1, 72.0, 700.0, 200.0, 720.0, 18.0, "Helvetica-Bold", true, false, Top);
      OutlineOf([f]) == Extracted("1. Introduction", [OutlineEntry(H1, "1. Introduction", 1)])
  {
    var f := Fragment("1. Introduction", 1, 72.0, 700.0, 200.0, 720.0, 18.0, "Helvetica-Bold", true, false, Top);
    var st := SizeStats([f]).value;
    assert f in [f];
    assert st.max == 18.0;
    RatioAbove(18.0, st.max, 0.8);
    var h := Heading(H1, f.text, 1, 18.0, Top);
    assert Candidate(f, st) == Some(h);
    assert ClassifyAll([f], st) == [h];
    assert SortHeadings([h]) == [h];
    assert Analyze([f]) == [h];
    assert IsFirstOfLevel([h], H1, f.text);
  }
}

=== FILE: text.dfy ===
/**
  Text repair (`fix_text_spacing` in utils.py): two literal substitution tables
  around a chain of regular-expression rewrites. Every `re.sub` is modelled as
  the leftmost, non-overlapping rewrite it performs over a `seq<char>`, and the
  tables are a parameter applied with `str.replace` semantics.
*/
module Text {

  import opened Base

  // ------------------------------------------------------------------ characters

  /** ASCII whitespace: the single reading this model gives Python's `\s`,
      `str.strip()` and `str.isspace()`. */
  predicate IsSpace(c: char) {
    c == ' ' || c == '\t' || c == '\n' || c == '\r' || c == '\U{B}' || c == '\U{C}'
  }

  /** The class `[a-z]`. */
  predicate IsLower(c: char) { 'a' <= c <= 'z' }

  /** The class `[A-Z]`. */
  predicate IsUpper(c: char) { 'A' <= c <= 'Z' }

  /** The class `[a-zA-Z]`. */
  predicate IsLetter(c: char) { IsLower(c) || IsUpper(c) }

  /** ASCII digits, standing in for `\d` and `str.isdigit()`. */
  predicate IsDigit(c: char) { '0' <= c <= '9' }

  /** The class `[.,!?]` of the punctuation rewrites. */
  predicate IsPunct(c: char) { c == '.' || c == ',' || c == '!' || c == '?' }

  // ------------------------------------------------------------------ string facts

  /** The non-whitespace characters of `s`, in order. */
  function NonSpace(s: string): string {
    if |s| == 0 then [] else (if IsSpace(s[0]) then [] else [s[0]]) + NonSpace(s[1..])
  }

  /** The character at `i` satisfies `p` and the next one satisfies `q`. */
  predicate PairAt(s: string, i: int, p: char -> bool, q: char -> bool) {
    0 <= i < |s| - 1 && p(s[i]) && q(s[i + 1])
  }

  /** No character satisfying `p` is immediately followed by one satisfying `q`. */
  predicate NoPair(s: string, p: char -> bool, q: char -> bool) {
    forall i :: 0 <= i < |s| - 1 ==> !PairAt(s, i, p, q)
  }

  /** Every whitespace character is a plain space. */
  predicate OnlySpaces(s: string) {
    forall c :: c in s && IsSpace(c) ==> c == ' '
  }

  /** No leading or trailing whitespace. */
  predicate Stripped(s: string) {
    |s| == 0 || (!IsSpace(s[0]) && !IsSpace(s[|s| - 1]))
  }

  /** Every whitespace character is a plain space with a non-whitespace
      character on each side: none leads, none trails, no two are adjacent. */
  predicate SingleSpaced(s: string) {
    Stripped(s) && OnlySpaces(s) && NoPair(s, IsSpace, IsSpace)
  }

  /** Python's `w in s` for strings: `w` occurs as a contiguous substring. */
  predicate Contains(s: string, w: string)
    decreases |s|
  {
    w <= s || (|s| > 0 && Contains(s[1..], w))
  }

  lemma {:induction false} NonSpaceConcat(a: string, b: string)
    ensures NonSpace(a + b) == NonSpace(a) + NonSpace(b)
    decreases |a|
  {
    if |a| == 0 {
      assert a + b == b;
    } else {
      assert (a + b)[1..] == a[1..] + b;
      NonSpaceConcat(a[1..], b);
    }
  }

  lemma NonSpaceOfSpaces(s: string)
    requires forall i :: 0 <= i < |s| ==> IsSpace(s[i])
    ensures NonSpace(s) == []
  {
    if |s| > 0 {
      NonSpaceOfSpaces(s[1..]);
    }
  }

  lemma NonSpaceSplice(x: string, y: string, a: string, b: string)
    requires NonSpace(x) == NonSpace(y) && NonSpace(a) == NonSpace(b)
    ensures NonSpace(x + a) == NonSpace(y + b)
  {
    NonSpaceConcat(x, a);
    NonSpaceConcat(y, b);
  }

  lemma NonSpaceSpaceBetween(x: char, y: char)
    ensures NonSpace([x, ' ', y]) == NonSpace([x, y])
  {
    assert [x, ' ', y][1..] == [' ', y];
    assert [' ', y][1..] == [y];
    assert [x, y][1..] == [y];
  }

  lemma NoPairConcat(a: string, b: string, p: char -> bool, q: char -> bool)
    ensures NoPair(a + b, p, q) <==>
      NoPair(a, p, q) && NoPair(b, p, q) && (|a| == 0 || |b| == 0 || !(p(a[|a| - 1]) && q(b[0])))
  {
    var s := a + b;
    if NoPair(a, p, q) && NoPair(b, p, q) && (|a| == 0 || |b| == 0 || !(p(a[|a| - 1]) && q(b[0]))) {
      forall i
        ensures !PairAt(s, i, p, q)
      {
        if 0 <= i < |a| - 1 {
          assert !PairAt(a, i, p, q);
          assert s[i] == a[i] && s[i + 1] == a[i + 1];
        } else if 0 <= i == |a| - 1 && |b| > 0 {
          assert s[i] == a[|a| - 1] && s[i + 1] == b[0];
        } else if |a| <= i < |s| - 1 {
          assert !PairAt(b, i - |a|, p, q);
          assert s[i] == b[i - |a|] && s[i + 1] == b[i - |a| + 1];
        }
      }
    }
    if NoPair(s, p, q) {
      forall i
        ensures !PairAt(a, i, p, q)
      {
        if 0 <= i < |a| - 1 {
          assert !PairAt(s, i, p, q);
          assert a[i] == s[i] && a[i + 1] == s[i + 1];
        }
      }
      forall i
        ensures !PairAt(b, i, p, q)
      {
        if 0 <= i < |b| - 1 {
          assert !PairAt(s, |a| + i, p, q);
          assert b[i] == s[|a| + i] && b[i + 1] == s[|a| + i + 1];
        }
      }
      if |a| > 0 && |b| > 0 {
        assert !PairAt(s, |a| - 1, p, q);
        assert s[|a| - 1] == a[|a| - 1] && s[|a|] == b[0];
      }
    }
  }

  lemma NoPairSlice(s: string, i: int, j: int, p: char -> bool, q: char -> bool)
    requires 0 <= i <= j <= |s|
    requires NoPair(s, p, q)
    ensures NoPair(s[i..j], p, q)
    ensures j == |s| ==> NoPair(s[i..], p, q)
    ensures i == 0 ==> NoPair(s[..j], p, q)
  {
    var t := s[i..j];
    assert j == |s| ==> s[i..] == t;
    assert i == 0 ==> s[..j] == t;
    forall k
      ensures !PairAt(t, k, p, q)
    {
      if 0 <= k < |t| - 1 {
        assert !PairAt(s, i + k, p, q);
        assert t[k] == s[i + k] && t[k + 1] == s[i + k + 1];
      }
    }
  }

  // ------------------------------------------------------------------ str.replace

  /** Python's `s.replace(target, replacement)`: every leftmost, non-overlapping
      occurrence of a non-empty `target` is replaced; an empty `target` puts
      the replacement before every character and at the end. */
  function Replace(s: string, target: string, replacement: string): (r: string)
    ensures |target| > 0 && |replacement| >= |target| ==> |r| >= |s|
    ensures |target| > 0 && |replacement| <= |target| ==> |r| <= |s|
    ensures |target| > 0 && replacement != target ==> (r == s <==> !Contains(s, target))
    ensures |target| > 0 && replacement == target ==> r == s
    ensures |target| == 0 ==> |r| > |s| || replacement == []
    decreases |s|
  {
    if |target| == 0 then
      if |s| == 0 then replacement
      else replacement + [s[0]] + Replace(s[1..], target, replacement)
    else if |s| == 0 then s
    else if target <= s then
      var rest := Replace(s[|target|..], target, replacement);
      assert s == target + s[|target|..];
      assert (replacement + rest)[..|replacement|] == replacement;
      replacement + rest
    else
      assert s == [s[0]] + s[1..];
      [s[0]] + Replace(s[1..], target, replacement)
  }

  /** The first occurrence of `target` in `piece + target` starts where
      `piece` ends: no earlier position begins one. */
  predicate EndsAtFirst(piece: string, target: string)
    requires |target| > 0
  {
    !Contains((piece + target)[..|piece| + |target| - 1], target)
  }

  /** The pieces of `s` between the leftmost non-overlapping occurrences of a
      non-empty `target`, as Python's `s.split(target)` gives them: no piece
      contains the target, and each piece but the last runs up to the first
      occurrence after it, which the text continues with. */
  function SplitOn(s: string, target: string): (r: seq<string>)
    requires |target| > 0
    ensures |r| > 0 && r[0] <= s
    ensures |r| > 1 ==> r[0] + target <= s
    ensures Pieces(r, target)
    decreases |s|
  {
    if |s| == 0 then
      PiecesCons("", [], target);
      [""]
    else if target <= s then
      var rest := SplitOn(s[|target|..], target);
      assert target <= target + s[|target|..];
      TooShort(target[..|target| - 1], target);
      assert ("" + target)[..|target| - 1] == target[..|target| - 1];
      PiecesCons("", rest, target);
      [""] + rest
    else
      var rest := SplitOn(s[1..], target);
      var first := [s[0]] + rest[0];
      assert first <= s by { assert s == [s[0]] + s[1..]; }
      assert !Contains(first, target) by {
        if target <= first {
          PrefixTrans(target, first, s);
        }
      }
      SkipFirst(s, target, rest);
      PiecesTail(rest, target);
      PiecesCons(first, rest[1..], target);
      [first] + rest[1..]
  }

  /** No piece contains the target, and each piece but the last ends where
      the first occurrence after it starts. */
  predicate Pieces(r: seq<string>, target: string)
    requires |target| > 0
  {
    && (forall i :: 0 <= i < |r| ==> !Contains(r[i], target))
    && (forall i :: 0 <= i < |r| - 1 ==> EndsAtFirst(r[i], target))
  }

  lemma PiecesCons(first: string, rest: seq<string>, target: string)
    requires |target| > 0
    requires !Contains(first, target)
    requires |rest| > 0 ==> EndsAtFirst(first, target)
    requires Pieces(rest, target)
    ensures Pieces([first] + rest, target)
  {
    var r := [first] + rest;
    assert forall i :: 1 <= i < |r| ==> r[i] == rest[i - 1];
  }

  lemma PiecesTail(rest: seq<string>, target: string)
    requires |target| > 0 && |rest| > 0
    requires Pieces(rest, target)
    ensures Pieces(rest[1..], target)
  {
    assert forall i :: 0 <= i < |rest| - 1 ==> rest[1..][i] == rest[i + 1];
  }

  /** Text shorter than `w` cannot contain it. */
  lemma {:induction false} TooShort(s: string, w: string)
    requires |s| < |w|
    ensures !Contains(s, w)
    decreases |s|
  {
    if |s| > 0 {
      TooShort(s[1..], w);
    }
  }

  /** A character that does not start an occurrence joins the first piece and
      keeps its occurrence the first one. */
  lemma SkipFirst(s: string, target: string, rest: seq<string>)
    requires |target| > 0 && |s| > 0 && !(target <= s) && |rest| > 0
    requires |rest| > 1 ==> rest[0] + target <= s[1..] && EndsAtFirst(rest[0], target)
    ensures |rest| > 1 ==> [s[0]] + rest[0] + target <= s && EndsAtFirst([s[0]] + rest[0], target)
  {
    if |rest| > 1 {
      var piece := rest[0];
      var first := [s[0]] + piece;
      assert first + target == [s[0]] + (piece + target);
      assert s == [s[0]] + s[1..];
      var u := (piece + target)[..|piece| + |target| - 1];
      var v := (first + target)[..|first| + |target| - 1];
      assert v == [s[0]] + u;
      assert v[1..] == u;
      if target <= v {
        PrefixTrans(v, first + target, s);
        PrefixTrans(target, v, s);
      }
    }
  }

  lemma PrefixTrans(a: string, b: string, c: string)
    requires a <= b && b <= c
    ensures a <= c
  {
    assert c[..|a|] == b[..|a|];
  }

  /** The pieces put back together with `sep` between each two. */
  function Join(parts: seq<string>, sep: string): string
    requires |parts| > 0
    decreases |parts|
  {
    if |parts| == 1 then parts[0] else parts[0] + sep + Join(parts[1..], sep)
  }

  /** A character in front of the first piece stays in front. */
  lemma JoinCons(c: char, parts: seq<string>, sep: string)
    requires |parts| > 0
    ensures Join([[c] + parts[0]] + parts[1..], sep) == [c] + Join(parts, sep)
  {
    var ps := [[c] + parts[0]] + parts[1..];
    if |parts| > 1 {
      assert ps[1..] == parts[1..];
    }
  }

  /** Splitting and joining with the target again gives back the text. */
  lemma {:induction false} SplitOnJoin(s: string, target: string)
    requires |target| > 0
    ensures Join(SplitOn(s, target), target) == s
    decreases |s|
  {
    if |s| > 0 {
      if target <= s {
        SplitOnJoin(s[|target|..], target);
        SplitOnJoinMatch(s, target);
      } else {
        SplitOnJoin(s[1..], target);
        SplitOnJoinSkip(s, target);
      }
    }
  }

  lemma SplitOnJoinMatch(s: string, target: string)
    requires |target| > 0 && target <= s
    requires Join(SplitOn(s[|target|..], target), target) == s[|target|..]
    ensures Join(SplitOn(s, target), target) == s
  {
    SplitOnAtMatch(s, target);
    JoinEmptyFirst(SplitOn(s[|target|..], target), target);
    assert s == target + s[|target|..];
  }

  lemma SplitOnJoinSkip(s: string, target: string)
    requires |target| > 0 && |s| > 0 && !(target <= s)
    requires Join(SplitOn(s[1..], target), target) == s[1..]
    ensures Join(SplitOn(s, target), target) == s
  {
    SplitOnSkip(s, target);
    JoinCons(s[0], SplitOn(s[1..], target), target);
    Uncons(s, []);
  }

  lemma SplitOnSkip(s: string, target: string)
    requires |target| > 0 && |s| > 0 && !(target <= s)
    ensures SplitOn(s, target) == [[s[0]] + SplitOn(s[1..], target)[0]] + SplitOn(s[1..], target)[1..]
  {
  }

  /** Every occurrence is replaced, leftmost first: `Replace` joins the pieces
      between the occurrences of a non-empty target with the replacement, no
      piece contains the target, each piece but the last ends at the first
      occurrence after it, and joining them with the target gives back `s`. */
  lemma ReplaceAll(s: string, target: string, replacement: string)
    requires |target| > 0
    ensures Replace(s, target, replacement) == Join(SplitOn(s, target), replacement)
    ensures forall p :: p in SplitOn(s, target) ==> !Contains(p, target)
    ensures forall i :: 0 <= i < |SplitOn(s, target)| - 1 ==> EndsAtFirst(SplitOn(s, target)[i], target)
    ensures Join(SplitOn(s, target), target) == s
  {
    ReplaceJoin(s, target, replacement);
    SplitOnJoin(s, target);
  }

  /** Overlapping occurrences are taken from the left: in "aaa" the
      occurrence of "aa" at the start is replaced, the one after it is not. */
  lemma ReplaceLeftmost()
    ensures SplitOn("aaa", "aa") == ["", "a"]
    ensures Replace("aaa", "aa", "X") == "Xa"
  {
    assert "aa" <= "aaa";
    assert "aaa"[2..] == "a";
    assert !("aa" <= "a") && "a"[1..] == [];
    assert SplitOn([], "aa") == [""];
    assert SplitOn("a", "aa") == [['a'] + ""] + [""][1..];
    assert ['a'] + "" == "a";
    assert [""][1..] == [];
    assert [['a'] + ""] + [""][1..] == ["a"] + [];
    ReplaceAll("aaa", "aa", "X");
  }

  lemma {:induction false} ReplaceJoin(s: string, target: string, replacement: string)
    requires |target| > 0
    ensures Replace(s, target, replacement) == Join(SplitOn(s, target), replacement)
    decreases |s|
  {
    if |s| > 0 {
      if target <= s {
        ReplaceJoin(s[|target|..], target, replacement);
        ReplaceJoinMatch(s, target, replacement);
      } else {
        ReplaceJoin(s[1..], target, replacement);
        ReplaceJoinSkip(s, target, replacement);
      }
    }
  }

  lemma ReplaceJoinMatch(s: string, target: string, replacement: string)
    requires |target| > 0 && target <= s
    requires Replace(s[|target|..], target, replacement) == Join(SplitOn(s[|target|..], target), replacement)
    ensures Replace(s, target, replacement) == Join(SplitOn(s, target), replacement)
  {
    ReplaceAtMatch(s, target, replacement);
    SplitOnAtMatch(s, target);
    JoinEmptyFirst(SplitOn(s[|target|..], target), replacement);
  }

  lemma ReplaceAtMatch(s: string, target: string, replacement: string)
    requires |target| > 0 && target <= s
    ensures Replace(s, target, replacement) == replacement + Replace(s[|target|..], target, replacement)
  {
  }

  lemma SplitOnAtMatch(s: string, target: string)
    requires |target| > 0 && target <= s
    ensures SplitOn(s, target) == [""] + SplitOn(s[|target|..], target)
  {
  }

  lemma JoinEmptyFirst(rest: seq<string>, sep: string)
    requires |rest| > 0
    ensures Join([""] + rest, sep) == sep + Join(rest, sep)
  {
    assert ([""] + rest)[1..] == rest;
  }

  lemma ReplaceJoinSkip(s: string, target: string, replacement: string)
    requires |target| > 0 && |s| > 0 && !(target <= s)
    requires Replace(s[1..], target, replacement) == Join(SplitOn(s[1..], target), replacement)
    ensures Replace(s, target, replacement) == Join(SplitOn(s, target), replacement)
  {
    JoinCons(s[0], SplitOn(s[1..], target), replacement);
  }

  /** Applies a substitution table in order, as the source's loops over
      `common_fixes.items()` and `additional_fixes.items()` do. */
  function ApplyTable(s: string, table: seq<(string, string)>): (r: string)
    ensures |table| == 1 ==> r == Replace(s, table[0].0, table[0].1)
    ensures (forall i :: 0 <= i < |table| ==> |table[i].0| > 0 && !Contains(s, table[i].0)) ==> r == s
    decreases |table|
  {
    if |table| == 0 then s
    else ApplyTable(Replace(s, table[0].0, table[0].1), table[1..])
  }

  /** Applying two tables one after the other is applying their concatenation. */
  lemma {:induction false} ApplyTableConcat(s: string, t1: seq<(string, string)>, t2: seq<(string, string)>)
    ensures ApplyTable(s, t1 + t2) == ApplyTable(ApplyTable(s, t1), t2)
    decreases |t1|
  {
    if |t1| == 0 {
      assert t1 + t2 == t2;
    } else {
      assert (t1 + t2)[0] == t1[0] && (t1 + t2)[1..] == t1[1..] + t2;
      ApplyTableConcat(Replace(s, t1[0].0, t1[0].1), t1[1..], t2);
    }
  }

  // ------------------------------------------------------------------ pair separation

  /** `re.sub(r'(P)(Q)', r'\1 \2', s)` for single-character classes P and Q:
      scanning left to right, a P-character followed by a Q-character gets a
      space inserted between them and scanning resumes after the pair. */
  function SeparatePairs(s: string, p: char -> bool, q: char -> bool): (r: string)
    ensures |r| >= |s|
    ensures |s| > 0 ==> |r| > 0 && r[0] == s[0]
    ensures NoPair(s, p, q) ==> r == s
    ensures !NoPair(s, p, q) ==> |r| > |s|
    decreases |s|
  {
    if |s| < 2 then s
    else if p(s[0]) && q(s[1]) then
      assert PairAt(s, 0, p, q);
      [s[0], ' ', s[1]] + SeparatePairs(s[2..], p, q)
    else
      assert s == [s[0]] + s[1..];
      NoPairConcat([s[0]], s[1..], p, q);
      [s[0]] + SeparatePairs(s[1..], p, q)
  }

  lemma {:induction false} SeparatePairsNonSpace(s: string, p: char -> bool, q: char -> bool)
    ensures NonSpace(SeparatePairs(s, p, q)) == NonSpace(s)
    decreases |s|
  {
    if |s| < 2 {
    } else if p(s[0]) && q(s[1]) {
      SeparatePairsNonSpace(s[2..], p, q);
      NonSpaceSpaceBetween(s[0], s[1]);
      NonSpaceSplice([s[0], ' ', s[1]], [s[0], s[1]], SeparatePairs(s[2..], p, q), s[2..]);
      assert s == [s[0], s[1]] + s[2..];
    } else {
      SeparatePairsNonSpace(s[1..], p, q);
      NonSpaceSplice([s[0]], [s[0]], SeparatePairs(s[1..], p, q), s[1..]);
      assert s == [s[0]] + s[1..];
    }
  }

  /** When no character is both a P and a Q, and a space is neither, the
      rewrite leaves no P-character directly before a Q-character. */
  lemma {:induction false} SeparatePairsRemovesPairs(s: string, p: char -> bool, q: char -> bool)
    requires forall c :: q(c) ==> !p(c)
    requires !p(' ') && !q(' ')
    ensures NoPair(SeparatePairs(s, p, q), p, q)
    decreases |s|
  {
    if |s| < 2 {
    } else if p(s[0]) && q(s[1]) {
      SeparatePairsRemovesPairs(s[2..], p, q);
      var rest := SeparatePairs(s[2..], p, q);
      NoPairConcat([s[0], ' ', s[1]], rest, p, q);
    } else {
      SeparatePairsRemovesPairs(s[1..], p, q);
      NoPairConcat([s[0]], SeparatePairs(s[1..], p, q), p, q);
    }
  }

  /** Inserting spaces keeps an absent A-then-B adjacency absent, provided the
      new neighbours of each inserted space cannot form one. */
  lemma {:induction false} SeparatePairsKeeps(s: string, p: char -> bool, q: char -> bool,
                                              a: char -> bool, b: char -> bool)
    requires NoPair(s, a, b)
    requires forall c :: p(c) && a(c) ==> !b(' ')
    requires forall c :: q(c) && b(c) ==> !a(' ')
    ensures NoPair(SeparatePairs(s, p, q), a, b)
    decreases |s|
  {
    if |s| < 2 {
    } else if p(s[0]) && q(s[1]) {
      NoPairSlice(s, 2, |s|, a, b);
      assert !PairAt(s, 1, a, b);
      SeparatePairsKeeps(s[2..], p, q, a, b);
      var rest := SeparatePairs(s[2..], p, q);
      NoPairConcat([s[0], ' ', s[1]], rest, a, b);
    } else {
      NoPairSlice(s, 1, |s|, a, b);
      assert !PairAt(s, 0, a, b);
      SeparatePairsKeeps(s[1..], p, q, a, b);
      NoPairConcat([s[0]], SeparatePairs(s[1..], p, q), a, b);
    }
  }

  lemma {:induction false} SeparatePairsOnlySpaces(s: string, p: char -> bool, q: char -> bool)
    requires OnlySpaces(s)
    ensures OnlySpaces(SeparatePairs(s, p, q))
    decreases |s|
  {
    if |s| < 2 {
    } else if p(s[0]) && q(s[1]) {
      assert s == [s[0], s[1]] + s[2..];
      SeparatePairsOnlySpaces(s[2..], p, q);
    } else {
      assert s == [s[0]] + s[1..];
      SeparatePairsOnlySpaces(s[1..], p, q);
    }
  }

  // ------------------------------------------------------------------ whitespace

  /** The length of the whitespace run that starts `s`. */
  function LeadingSpaces(s: string): (n: nat)
    ensures n <= |s|
    ensures forall i :: 0 <= i < n ==> IsSpace(s[i])
    ensures n < |s| ==> !IsSpace(s[n])
    decreases |s|
  {
    if |s| > 0 && IsSpace(s[0]) then 1 + LeadingSpaces(s[1..]) else 0
  }

  /** The length of the whitespace run that ends `s`. */
  function TrailingSpaces(s: string): (n: nat)
    ensures n <= |s|
    ensures forall i :: |s| - n <= i < |s| ==> IsSpace(s[i])
    ensures n < |s| ==> !IsSpace(s[|s| - n - 1])
    decreases |s|
  {
    if |s| > 0 && IsSpace(s[|s| - 1]) then 1 + TrailingSpaces(s[..|s| - 1]) else 0
  }

  /** The suffix of `s` after its leading whitespace run (`str.lstrip()`). */
  function StripLeft(s: string): (t: string)
    ensures |t| <= |s| && t == s[|s| - |t|..]
    ensures |t| > 0 ==> !IsSpace(t[0])
    ensures forall i :: 0 <= i < |s| - |t| ==> IsSpace(s[i])
    ensures |s| > 0 && IsSpace(s[0]) ==> |t| < |s|
  {
    s[LeadingSpaces(s)..]
  }

  /** Dropping a leading whitespace character does not change the left strip. */
  lemma StripLeftTail(s: string)
    ensures |s| > 0 && IsSpace(s[0]) ==> StripLeft(s) == StripLeft(s[1..])
  {
    if |s| > 0 && IsSpace(s[0]) {
      var n := LeadingSpaces(s);
      assert n == 1 + LeadingSpaces(s[1..]);
      assert s[n..] == s[1..][n - 1..];
    }
  }

  /** A non-empty run of whitespace characters. */
  predicate SpaceRun(w: string) {
    |w| > 0 && forall i :: 0 <= i < |w| ==> IsSpace(w[i])
  }

  lemma {:induction false} LeadingSpacesConcat(a: string, x: string)
    ensures LeadingSpaces(a + x) == if LeadingSpaces(a) < |a| then LeadingSpaces(a) else |a| + LeadingSpaces(x)
    decreases |a|
  {
    if |a| == 0 {
      assert a + x == x;
    } else {
      assert (a + x)[0] == a[0] && (a + x)[1..] == a[1..] + x;
      if IsSpace(a[0]) {
        LeadingSpacesConcat(a[1..], x);
      }
    }
  }

  /** Text that ends in a non-whitespace character keeps the left strip to itself. */
  lemma StripLeftConcat(a: string, x: string)
    requires |a| > 0 && !IsSpace(a[|a| - 1])
    ensures |StripLeft(a)| > 0
    ensures StripLeft(a + x) == StripLeft(a) + x
  {
    LeadingSpacesConcat(a, x);
    var n := LeadingSpaces(a);
    assert (a + x)[n..] == a[n..] + x;
  }

  /** A whitespace run before text that does not start with whitespace is stripped whole. */
  lemma StripLeftRun(w: string, b: string)
    requires forall i :: 0 <= i < |w| ==> IsSpace(w[i])
    requires |b| == 0 || !IsSpace(b[0])
    ensures StripLeft(w + b) == b
  {
    LeadingSpacesConcat(w, b);
    assert LeadingSpaces(b) == 0;
    assert (w + b)[|w|..] == b;
  }

  /** The prefix of `s` before its trailing whitespace run (`str.rstrip()`). */
  function StripRight(s: string): (t: string)
    ensures |t| <= |s| && t == s[..|t|]
    ensures |t| > 0 ==> !IsSpace(t[|t| - 1])
    ensures forall i :: |t| <= i < |s| ==> IsSpace(s[i])
  {
    s[..|s| - TrailingSpaces(s)]
  }

  /** `str.strip()`: the text without leading and trailing whitespace. */
  function Strip(s: string): (r: string)
    ensures Stripped(r)
    ensures |r| <= |s|
    ensures r == s <==> Stripped(s)
  {
    StripProperties(s);
    StripRight(StripLeft(s))
  }

  /** Stripping cuts out a slice: everything before and after it is whitespace. */
  lemma StripSlice(s: string)
    ensures exists i, j ::
              && 0 <= i <= j <= |s| && Strip(s) == s[i..j]
              && (forall k :: 0 <= k < i ==> IsSpace(s[k]))
              && (forall k :: j <= k < |s| ==> IsSpace(s[k]))
  {
    var t := StripLeft(s);
    var u := StripRight(t);
    var i := |s| - |t|;
    var j := i + |u|;
    assert u == t[..|u|] && t == s[i..];
    assert Strip(s) == s[i..j];
    assert forall k :: j <= k < |s| ==> s[k] == t[k - i];
  }

  lemma StripProperties(s: string)
    ensures Stripped(StripRight(StripLeft(s)))
    ensures StripRight(StripLeft(s)) == s <==> Stripped(s)
  {
    var t := StripLeft(s);
    var r := StripRight(t);
    if |r| > 0 {
      assert r[0] == t[0];
    }
    if Stripped(s) {
      assert LeadingSpaces(s) == 0;
      assert t == s;
      assert TrailingSpaces(s) == 0;
    }
  }

  /** Whitespace around a string contributes no non-whitespace characters. */
  lemma NonSpaceAround(lead: string, u: string, trail: string)
    requires forall i :: 0 <= i < |lead| ==> IsSpace(lead[i])
    requires forall i :: 0 <= i < |trail| ==> IsSpace(trail[i])
    ensures NonSpace(lead + u + trail) == NonSpace(u)
  {
    NonSpaceOfSpaces(lead);
    NonSpaceOfSpaces(trail);
    assert lead + u + trail == lead + (u + trail);
    NonSpaceConcat(lead, u + trail);
    NonSpaceConcat(u, trail);
  }

  lemma StripLeftNonSpace(s: string)
    ensures NonSpace(StripLeft(s)) == NonSpace(s)
  {
    var t := StripLeft(s);
    NonSpaceAround(s[..|s| - |t|], t, []);
    assert s[..|s| - |t|] + t + [] == s;
  }

  lemma StripRightNonSpace(s: string)
    ensures NonSpace(StripRight(s)) == NonSpace(s)
  {
    var t := StripRight(s);
    NonSpaceAround([], t, s[|t|..]);
    assert [] + t + s[|t|..] == s;
  }

  lemma StripNonSpace(s: string)
    ensures NonSpace(Strip(s)) == NonSpace(s)
  {
    StripLeftNonSpace(s);
    StripRightNonSpace(StripLeft(s));
  }

  /** Stripping keeps only characters of the original. */
  lemma StripChars(s: string)
    ensures forall c :: c in Strip(s) ==> c in s
  {
    var t := StripLeft(s);
    assert forall c :: c in t ==> c in s;
    assert forall c :: c in StripRight(t) ==> c in t;
  }

  /** Stripping cuts a slice, so it creates no new adjacency and no new character. */
  lemma StripKeeps(s: string, a: char -> bool, b: char -> bool)
    requires NoPair(s, a, b)
    ensures NoPair(Strip(s), a, b)
  {
    var t := StripLeft(s);
    NoPairSlice(s, |s| - |t|, |s|, a, b);
    NoPairSlice(t, 0, |StripRight(t)|, a, b);
  }

  lemma StripOnlySpaces(s: string)
    requires OnlySpaces(s)
    ensures OnlySpaces(Strip(s))
  {
    var t := StripLeft(s);
    assert forall c :: c in t ==> c in s;
    var u := StripRight(t);
    assert forall c :: c in u ==> c in t;
  }

  /** `re.sub(r'\s+', ' ', s)`: every maximal whitespace run becomes one space. */
  function CollapseSpace(s: string): (r: string)
    ensures |r| <= |s|
    ensures |s| > 0 ==> |r| > 0 && r[0] == (if IsSpace(s[0]) then ' ' else s[0])
    ensures OnlySpaces(r) && NoPair(r, IsSpace, IsSpace)
    decreases |s|
  {
    if |s| == 0 then []
    else if IsSpace(s[0]) then
      var rest := CollapseSpace(StripLeft(s));
      NoPairConcat(" ", rest, IsSpace, IsSpace);
      " " + rest
    else
      var rest := CollapseSpace(s[1..]);
      NoPairConcat([s[0]], rest, IsSpace, IsSpace);
      [s[0]] + rest
  }

  lemma {:induction false} CollapseSpaceNonSpace(s: string)
    ensures NonSpace(CollapseSpace(s)) == NonSpace(s)
    decreases |s|
  {
    if |s| == 0 {
    } else if IsSpace(s[0]) {
      var t := StripLeft(s);
      var run := s[..|s| - |t|];
      CollapseSpaceNonSpace(t);
      assert s == run + t + [];
      NonSpaceAround(run, t, []);
      NonSpaceAround(" ", CollapseSpace(t), []);
      assert " " + CollapseSpace(t) + [] == " " + CollapseSpace(t);
    } else {
      CollapseSpaceNonSpace(s[1..]);
      NonSpaceSplice([s[0]], [s[0]], CollapseSpace(s[1..]), s[1..]);
      assert s == [s[0]] + s[1..];
    }
  }

  /** Collapsing leaves text alone exactly when it already has only single plain spaces. */
  lemma {:induction false} CollapseSpaceFixpoint(s: string)
    ensures CollapseSpace(s) == s <==> OnlySpaces(s) && NoPair(s, IsSpace, IsSpace)
    decreases |s|
  {
    if |s| == 0 {
    } else if IsSpace(s[0]) {
      var t := StripLeft(s);
      CollapseSpaceFixpoint(t);
      assert s == [s[0]] + s[1..];
      NoPairConcat([s[0]], s[1..], IsSpace, IsSpace);
      if OnlySpaces(s) && NoPair(s, IsSpace, IsSpace) {
        assert s[0] in s;
        assert |s| > 1 ==> !IsSpace(s[1]);
        assert t == s[1..];
        assert forall c :: c in t ==> c in s;
      }
      if CollapseSpace(s) == s {
        assert s[0] == ' ';
        assert |CollapseSpace(t)| == |s| - 1;
        assert t == s[1..];
        assert CollapseSpace(t) == t;
      }
    } else {
      CollapseSpaceFixpoint(s[1..]);
      assert s == [s[0]] + s[1..];
      NoPairConcat([s[0]], s[1..], IsSpace, IsSpace);
    }
  }

  /** Collapsing creates no adjacency between characters that are not spaces. */
  lemma {:induction false} CollapseSpaceKeeps(s: string, a: char -> bool, b: char -> bool)
    requires NoPair(s, a, b)
    requires !a(' ') && !b(' ')
    ensures NoPair(CollapseSpace(s), a, b)
    decreases |s|
  {
    if |s| == 0 {
    } else if IsSpace(s[0]) {
      var t := StripLeft(s);
      NoPairSlice(s, |s| - |t|, |s|, a, b);
      CollapseSpaceKeeps(t, a, b);
      NoPairConcat(" ", CollapseSpace(t), a, b);
    } else {
      NoPairSlice(s, 1, |s|, a, b);
      assert !PairAt(s, 0, a, b);
      CollapseSpaceKeeps(s[1..], a, b);
      NoPairConcat([s[0]], CollapseSpace(s[1..]), a, b);
    }
  }

  /** `s` begins with a whitespace run followed by one of `.,!?`: exactly
      where `\s+([.,!?])` matches at the start of `s`. */
  predicate SpaceThenPunct(s: string) {
    |s| > 0 && IsSpace(s[0]) && |StripLeft(s)| > 0 && IsPunct(StripLeft(s)[0])
  }

  /** `re.sub(r'\s+([.,!?])', r'\1', s)`: a whitespace run directly before one
      of `.,!?` is deleted. No match starts inside a run that is followed by
      anything else, so such a run is copied character by character. */
  function DropSpaceBeforePunct(s: string): (r: string)
    ensures |r| <= |s|
    ensures |s| > 0 ==> |r| > 0 && (r[0] == s[0] || IsPunct(r[0]))
    ensures |s| > 0 && !SpaceThenPunct(s) ==> r[0] == s[0]
    ensures NoPair(r, IsSpace, IsPunct)
    decreases |s|
  {
    if |s| == 0 then []
    else if SpaceThenPunct(s) then
      var t := StripLeft(s);
      var rest := DropSpaceBeforePunct(t[1..]);
      NoPairConcat([t[0]], rest, IsSpace, IsPunct);
      [t[0]] + rest
    else
      var rest := DropSpaceBeforePunct(s[1..]);
      StripLeftTail(s);
      assert IsSpace(s[0]) && |s| > 1 && !IsSpace(s[1]) ==> StripLeft(s) == s[1..];
      NoPairConcat([s[0]], rest, IsSpace, IsPunct);
      [s[0]] + rest
  }

  lemma {:induction false} DropSpaceBeforePunctNonSpace(s: string)
    ensures NonSpace(DropSpaceBeforePunct(s)) == NonSpace(s)
    decreases |s|
  {
    if |s| == 0 {
    } else if SpaceThenPunct(s) {
      var t := StripLeft(s);
      StripLeftNonSpace(s);
      DropSpaceBeforePunctNonSpace(t[1..]);
      NonSpaceSplice([t[0]], [t[0]], DropSpaceBeforePunct(t[1..]), t[1..]);
      assert t == [t[0]] + t[1..];
    } else {
      DropSpaceBeforePunctNonSpace(s[1..]);
      NonSpaceSplice([s[0]], [s[0]], DropSpaceBeforePunct(s[1..]), s[1..]);
      assert s == [s[0]] + s[1..];
    }
  }

  /** The deletion leaves text alone exactly when no whitespace already precedes `.,!?`. */
  lemma {:induction false} DropSpaceBeforePunctFixpoint(s: string)
    ensures DropSpaceBeforePunct(s) == s <==> NoPair(s, IsSpace, IsPunct)
    decreases |s|
  {
    if |s| == 0 {
    } else if SpaceThenPunct(s) {
      var k := |s| - |StripLeft(s)|;
      assert IsSpace(s[k - 1]) && IsPunct(s[k]);
      assert PairAt(s, k - 1, IsSpace, IsPunct);
    } else {
      DropSpaceBeforePunctFixpoint(s[1..]);
      assert s == [s[0]] + s[1..];
      NoPairConcat([s[0]], s[1..], IsSpace, IsPunct);
      if |s| > 1 && IsSpace(s[0]) && !IsSpace(s[1]) {
        assert StripLeft(s) == s[1..];
      }
    }
  }

  /** Deleting whitespace keeps an absent A-then-B adjacency absent when B never
      holds of `.,!?` (the characters that can become new right-hand neighbours). */
  lemma {:induction false} DropSpaceBeforePunctKeeps(s: string, a: char -> bool, b: char -> bool)
    requires NoPair(s, a, b)
    requires forall c :: IsPunct(c) ==> !b(c)
    ensures NoPair(DropSpaceBeforePunct(s), a, b)
    decreases |s|
  {
    if |s| == 0 {
    } else if SpaceThenPunct(s) {
      var t := StripLeft(s);
      var k := |s| - |t|;
      NoPairSlice(s, k + 1, |s|, a, b);
      assert t[1..] == s[k + 1..];
      DropSpaceBeforePunctKeeps(t[1..], a, b);
      var rest := DropSpaceBeforePunct(t[1..]);
      if |t| > 1 {
        assert t[0] == s[k] && t[1] == s[k + 1];
        assert !PairAt(s, k, a, b);
      }
      NoPairConcat([t[0]], rest, a, b);
    } else {
      NoPairSlice(s, 1, |s|, a, b);
      assert !PairAt(s, 0, a, b);
      DropSpaceBeforePunctKeeps(s[1..], a, b);
      NoPairConcat([s[0]], DropSpaceBeforePunct(s[1..]), a, b);
    }
  }

  lemma {:induction false} DropSpaceBeforePunctOnlySpaces(s: string)
    requires OnlySpaces(s)
    ensures OnlySpaces(DropSpaceBeforePunct(s))
    decreases |s|
  {
    if |s| == 0 {
    } else if SpaceThenPunct(s) {
      var t := StripLeft(s);
      assert forall c :: c in t[1..] ==> c in s;
      DropSpaceBeforePunctOnlySpaces(t[1..]);
    } else {
      assert forall c :: c in s[1..] ==> c in s;
      DropSpaceBeforePunctOnlySpaces(s[1..]);
    }
  }

  /** Each maximal whitespace run becomes one space where it stands: with `w`
      a whole run (nothing around it is whitespace), collapsing the text is
      collapsing both sides and putting one space between them. */
  lemma {:induction false} CollapseSpaceSplice(a: string, w: string, b: string)
    requires SpaceRun(w)
    requires |a| == 0 || !IsSpace(a[|a| - 1])
    requires |b| == 0 || !IsSpace(b[0])
    ensures CollapseSpace(a + w + b) == CollapseSpace(a) + " " + CollapseSpace(b)
    decreases |a|
  {
    if |a| == 0 {
      assert a == [];
      CollapseRunFirst(w, b);
    } else if IsSpace(a[0]) {
      StripLeftConcat(a, w + b);
      CollapseSpaceSplice(StripLeft(a), w, b);
      CollapseLeadStep(a, w, b);
    } else {
      CollapseSpaceSplice(a[1..], w, b);
      CollapseCharStep(a, w, b);
    }
  }

  lemma CollapseRunFirst(w: string, b: string)
    requires SpaceRun(w)
    requires |b| == 0 || !IsSpace(b[0])
    ensures CollapseSpace([] + w + b) == CollapseSpace([]) + " " + CollapseSpace(b)
  {
    CollapseRunAlone(w, b);
    EmptyPrefix([], w);
    EmptyPrefix([], " ");
  }

  lemma CollapseRunAlone(w: string, b: string)
    requires SpaceRun(w)
    requires |b| == 0 || !IsSpace(b[0])
    ensures CollapseSpace(w + b) == " " + CollapseSpace(b)
  {
    assert IsSpace(w[0]) && (w + b)[0] == w[0];
    StripLeftRun(w, b);
    CollapseLead(w + b);
  }

  lemma CollapseLeadStep(a: string, w: string, b: string)
    requires |a| > 0 && IsSpace(a[0])
    requires StripLeft(a + (w + b)) == StripLeft(a) + (w + b)
    requires CollapseSpace(StripLeft(a) + w + b) == CollapseSpace(StripLeft(a)) + " " + CollapseSpace(b)
    ensures CollapseSpace(a + w + b) == CollapseSpace(a) + " " + CollapseSpace(b)
  {
    var t := StripLeft(a);
    Uncons(a, w + b);
    AppendAssoc(a, w, b);
    AppendAssoc(t, w, b);
    CollapseLead(a + w + b);
    CollapseLead(a);
    AppendAssoc(" ", CollapseSpace(t), " ");
    AppendAssoc(" ", CollapseSpace(t) + " ", CollapseSpace(b));
  }

  /** A leading whitespace run collapses to one space. */
  lemma CollapseLead(s: string)
    requires |s| > 0 && IsSpace(s[0])
    ensures CollapseSpace(s) == " " + CollapseSpace(StripLeft(s))
  {
  }

  lemma CollapseCharStep(a: string, w: string, b: string)
    requires |a| > 0 && !IsSpace(a[0])
    requires CollapseSpace(a[1..] + w + b) == CollapseSpace(a[1..]) + " " + CollapseSpace(b)
    ensures CollapseSpace(a + w + b) == CollapseSpace(a) + " " + CollapseSpace(b)
  {
    var y := a[1..] + w + b;
    Uncons(a, w + b);
    AppendAssoc(a, w, b);
    AppendAssoc(a[1..], w, b);
    CollapseCons(a[0], y);
    CollapseCons(a[0], a[1..]);
    AppendAssoc([a[0]], CollapseSpace(a[1..]), " ");
    AppendAssoc([a[0]], CollapseSpace(a[1..]) + " ", CollapseSpace(b));
  }

  lemma CollapseCons(c: char, y: string)
    requires !IsSpace(c)
    ensures CollapseSpace([c] + y) == [c] + CollapseSpace(y)
  {
    assert ([c] + y)[1..] == y;
  }

  /** A whitespace run followed by neither whitespace nor `.,!?` is kept as it is. */
  lemma {:induction false} DropSpaceRunKept(w: string, b: string)
    requires forall i :: 0 <= i < |w| ==> IsSpace(w[i])
    requires |b| == 0 || (!IsSpace(b[0]) && !IsPunct(b[0]))
    ensures DropSpaceBeforePunct(w + b) == w + DropSpaceBeforePunct(b)
    decreases |w|
  {
    if |w| == 0 {
      EmptyPrefix(w, b);
      EmptyPrefix(w, DropSpaceBeforePunct(b));
    } else {
      DropSpaceRunKept(w[1..], b);
      DropKeepStep(w, b);
    }
  }

  lemma DropKeepStep(w: string, b: string)
    requires |w| > 0 && forall i :: 0 <= i < |w| ==> IsSpace(w[i])
    requires |b| == 0 || (!IsSpace(b[0]) && !IsPunct(b[0]))
    requires DropSpaceBeforePunct(w[1..] + b) == w[1..] + DropSpaceBeforePunct(b)
    ensures DropSpaceBeforePunct(w + b) == w + DropSpaceBeforePunct(b)
  {
    RunNotBeforePunct(w, b);
    Uncons(w, b);
    DropCons(w[0], w[1..] + b);
    AppendAssoc([w[0]], w[1..], DropSpaceBeforePunct(b));
  }

  lemma RunNotBeforePunct(w: string, b: string)
    requires forall i :: 0 <= i < |w| ==> IsSpace(w[i])
    requires |b| == 0 || (!IsSpace(b[0]) && !IsPunct(b[0]))
    ensures !SpaceThenPunct(w + b)
  {
    StripLeftRun(w, b);
  }

  /** Only the whitespace directly before `.,!?` goes: with `w` a whole run,
      the run disappears when `.,!?` follows it and stays as it is otherwise,
      and the text on either side is treated on its own. */
  lemma {:induction false} DropSpaceBeforePunctSplice(a: string, w: string, b: string)
    requires SpaceRun(w)
    requires |a| == 0 || !IsSpace(a[|a| - 1])
    requires |b| == 0 || !IsSpace(b[0])
    ensures DropSpaceBeforePunct(a + w + b) ==
      DropSpaceBeforePunct(a) + (if |b| > 0 && IsPunct(b[0]) then "" else w) + DropSpaceBeforePunct(b)
    decreases |a|
  {
    if |a| == 0 {
      assert a == [];
      DropRunFirst(w, b);
    } else if SpaceThenPunct(a) {
      var t := StripLeft(a);
      StripLeftConcat(a, w + b);
      assert t[|t| - 1] == a[|a| - 1];
      DropSpaceBeforePunctSplice(t[1..], w, b);
      DropLeadStep(a, w, b);
    } else {
      DropSpaceBeforePunctSplice(a[1..], w, b);
      DropCharStep(a, w, b);
    }
  }

  lemma DropRunFirst(w: string, b: string)
    requires SpaceRun(w)
    requires |b| == 0 || !IsSpace(b[0])
    ensures DropSpaceBeforePunct([] + w + b) ==
      DropSpaceBeforePunct([]) + (if |b| > 0 && IsPunct(b[0]) then "" else w) + DropSpaceBeforePunct(b)
  {
    EmptyPrefix([], w);
    if |b| > 0 && IsPunct(b[0]) {
      DropRunBeforePunct(w, b);
      EmptyPrefix([], "");
      EmptyPrefix([] + "", DropSpaceBeforePunct(b));
    } else {
      DropSpaceRunKept(w, b);
      EmptyPrefix([], w);
    }
  }

  lemma DropRunBeforePunct(w: string, b: string)
    requires SpaceRun(w)
    requires |b| > 0 && IsPunct(b[0])
    ensures DropSpaceBeforePunct(w + b) == DropSpaceBeforePunct(b)
  {
    assert IsSpace(w[0]) && (w + b)[0] == w[0];
    StripLeftRun(w, b);
    DropLead(w + b);
    DropCons(b[0], b[1..]);
    assert b == [b[0]] + b[1..];
  }

  lemma DropLeadStep(a: string, w: string, b: string)
    requires |a| > 0 && SpaceThenPunct(a)
    requires StripLeft(a + (w + b)) == StripLeft(a) + (w + b)
    requires DropSpaceBeforePunct(StripLeft(a)[1..] + w + b) ==
      DropSpaceBeforePunct(StripLeft(a)[1..]) + (if |b| > 0 && IsPunct(b[0]) then "" else w) + DropSpaceBeforePunct(b)
    ensures DropSpaceBeforePunct(a + w + b) ==
      DropSpaceBeforePunct(a) + (if |b| > 0 && IsPunct(b[0]) then "" else w) + DropSpaceBeforePunct(b)
  {
    var t := StripLeft(a);
    Uncons(a, w + b);
    AppendAssoc(a, w, b);
    Uncons(t, w + b);
    AppendAssoc(t, w, b);
    AppendAssoc(t[1..], w, b);
    DropLead(a + w + b);
    DropLead(a);
    AppendAssoc([t[0]], DropSpaceBeforePunct(t[1..]), if |b| > 0 && IsPunct(b[0]) then "" else w);
    AppendAssoc([t[0]], DropSpaceBeforePunct(t[1..]) + (if |b| > 0 && IsPunct(b[0]) then "" else w), DropSpaceBeforePunct(b));
  }

  lemma DropCharStep(a: string, w: string, b: string)
    requires |a| > 0 && !IsSpace(a[|a| - 1]) && !SpaceThenPunct(a)
    requires DropSpaceBeforePunct(a[1..] + w + b) ==
      DropSpaceBeforePunct(a[1..]) + (if |b| > 0 && IsPunct(b[0]) then "" else w) + DropSpaceBeforePunct(b)
    ensures DropSpaceBeforePunct(a + w + b) ==
      DropSpaceBeforePunct(a) + (if |b| > 0 && IsPunct(b[0]) then "" else w) + DropSpaceBeforePunct(b)
  {
    Uncons(a, w + b);
    AppendAssoc(a, w, b);
    AppendAssoc(a[1..], w, b);
    SpaceThenPunctConcat(a, w + b);
    DropCons(a[0], a[1..] + w + b);
    DropCons(a[0], a[1..]);
    AppendAssoc([a[0]], DropSpaceBeforePunct(a[1..]), if |b| > 0 && IsPunct(b[0]) then "" else w);
    AppendAssoc([a[0]], DropSpaceBeforePunct(a[1..]) + (if |b| > 0 && IsPunct(b[0]) then "" else w), DropSpaceBeforePunct(b));
  }

  /** What follows text ending in a non-whitespace character cannot change
      whether a whitespace run then `.,!?` starts it. */
  lemma SpaceThenPunctConcat(a: string, x: string)
    requires |a| > 0 && !IsSpace(a[|a| - 1])
    ensures SpaceThenPunct(a + x) == SpaceThenPunct(a)
  {
    StripLeftConcat(a, x);
    assert (a + x)[0] == a[0];
    assert (StripLeft(a) + x)[0] == StripLeft(a)[0];
  }

  /** A whitespace run before `.,!?` is deleted. */
  lemma DropLead(s: string)
    requires SpaceThenPunct(s)
    ensures DropSpaceBeforePunct(s) == [StripLeft(s)[0]] + DropSpaceBeforePunct(StripLeft(s)[1..])
  {
  }

  /** A character that does not start a deleted run is kept. */
  lemma DropCons(c: char, y: string)
    requires !SpaceThenPunct([c] + y)
    ensures DropSpaceBeforePunct([c] + y) == [c] + DropSpaceBeforePunct(y)
  {
    assert ([c] + y)[1..] == y;
  }

  // ------------------------------------------------------------------ fix_text_spacing

  /** The two literal substitution tables, applied before and after the
      letter/digit splits. Their contents are data for one document. */
  datatype Repairs = Repairs(common: seq<(string, string)>, additional: seq<(string, string)>)

  /** Both tables empty: only the generic rewrites run. */
  const NoRepairs: Repairs := Repairs([], [])

  /** The generic rewrites that follow the first table. */
  function SplitRuns(s: string): string {
    var camel := SeparatePairs(s, IsLower, IsUpper);
    var letterDigit := SeparatePairs(camel, IsLetter, IsDigit);
    SeparatePairs(letterDigit, IsDigit, IsLetter)
  }

  /** The whitespace and punctuation clean-up that follows the second table. */
  function CleanUp(s: string): string {
    var collapsed := CollapseSpace(s);
    var tight := DropSpaceBeforePunct(collapsed);
    Strip(SeparatePairs(tight, IsPunct, IsLetter))
  }

  /** `fix_text_spacing`. Whatever the tables hold, the result has no leading
      or trailing whitespace, only single plain spaces between non-spaces, no
      whitespace before `.,!?` and none of `.,!?` directly before a letter. */
  function FixTextSpacing(text: string, repairs: Repairs): (r: string)
    ensures SingleSpaced(r)
    ensures NoPair(r, IsSpace, IsPunct)
    ensures NoPair(r, IsPunct, IsLetter)
  {
    var s := ApplyTable(SplitRuns(ApplyTable(text, repairs.common)), repairs.additional);
    CleanUpProperties(s);
    CleanUp(s)
  }

  lemma CleanUpProperties(s: string)
    ensures var r := CleanUp(s);
      Stripped(r) && SingleSpaced(r) && NoPair(r, IsSpace, IsPunct) && NoPair(r, IsPunct, IsLetter)
  {
    var collapsed := CollapseSpace(s);
    var tight := DropSpaceBeforePunct(collapsed);
    DropSpaceBeforePunctOnlySpaces(collapsed);
    DropSpaceBeforePunctKeeps(collapsed, IsSpace, IsSpace);
    var spaced := SeparatePairs(tight, IsPunct, IsLetter);
    SeparatePairsRemovesPairs(tight, IsPunct, IsLetter);
    SeparatePairsOnlySpaces(tight, IsPunct, IsLetter);
    SeparatePairsKeeps(tight, IsPunct, IsLetter, IsSpace, IsSpace);
    SeparatePairsKeeps(tight, IsPunct, IsLetter, IsSpace, IsPunct);
    var r := Strip(spaced);
    StripOnlySpaces(spaced);
    StripKeeps(spaced, IsSpace, IsSpace);
    StripKeeps(spaced, IsSpace, IsPunct);
    StripKeeps(spaced, IsPunct, IsLetter);
  }

  /** With both tables empty the repair also leaves no lower-then-upper,
      letter-then-digit or digit-then-letter adjacency, and it only moves
      whitespace: the non-whitespace characters stay the same and in order. */
  lemma FixWithoutTables(text: string)
    ensures var r := FixTextSpacing(text, NoRepairs);
      && NoPair(r, IsLower, IsUpper)
      && NoPair(r, IsLetter, IsDigit)
      && NoPair(r, IsDigit, IsLetter)
      && NonSpace(r) == NonSpace(text)
  {
    var camel := SeparatePairs(text, IsLower, IsUpper);
    SeparatePairsRemovesPairs(text, IsLower, IsUpper);
    SeparatePairsNonSpace(text, IsLower, IsUpper);

    var letterDigit := SeparatePairs(camel, IsLetter, IsDigit);
    SeparatePairsKeeps(camel, IsLetter, IsDigit, IsLower, IsUpper);
    SeparatePairsRemovesPairs(camel, IsLetter, IsDigit);
    SeparatePairsNonSpace(camel, IsLetter, IsDigit);

    var split := SeparatePairs(letterDigit, IsDigit, IsLetter);
    SeparatePairsKeeps(letterDigit, IsDigit, IsLetter, IsLower, IsUpper);
    SeparatePairsKeeps(letterDigit, IsDigit, IsLetter, IsLetter, IsDigit);
    SeparatePairsRemovesPairs(letterDigit, IsDigit, IsLetter);
    SeparatePairsNonSpace(letterDigit, IsDigit, IsLetter);
    assert SplitRuns(text) == split;

    var collapsed := CollapseSpace(split);
    CollapseSpaceKeeps(split, IsLower, IsUpper);
    CollapseSpaceKeeps(split, IsLetter, IsDigit);
    CollapseSpaceKeeps(split, IsDigit, IsLetter);
    CollapseSpaceNonSpace(split);

    var tight := DropSpaceBeforePunct(collapsed);
    DropSpaceBeforePunctKeeps(collapsed, IsLower, IsUpper);
    DropSpaceBeforePunctKeeps(collapsed, IsLetter, IsDigit);
    DropSpaceBeforePunctKeeps(collapsed, IsDigit, IsLetter);
    DropSpaceBeforePunctNonSpace(collapsed);

    var spaced := SeparatePairs(tight, IsPunct, IsLetter);
    SeparatePairsKeeps(tight, IsPunct, IsLetter, IsLower, IsUpper);
    SeparatePairsKeeps(tight, IsPunct, IsLetter, IsLetter, IsDigit);
    SeparatePairsKeeps(tight, IsPunct, IsLetter, IsDigit, IsLetter);
    SeparatePairsNonSpace(tight, IsPunct, IsLetter);

    StripKeeps(spaced, IsLower, IsUpper);
    StripKeeps(spaced, IsLetter, IsDigit);
    StripKeeps(spaced, IsDigit, IsLetter);
    StripNonSpace(spaced);
    assert FixTextSpacing(text, NoRepairs) == Strip(spaced);
  }

  /** With both tables empty, repairing repaired text changes nothing. */
  lemma FixIdempotent(text: string)
    ensures FixTextSpacing(FixTextSpacing(text, NoRepairs), NoRepairs) == FixTextSpacing(text, NoRepairs)
  {
    var r := FixTextSpacing(text, NoRepairs);
    FixWithoutTables(text);
    assert SplitRuns(r) == r;
    CollapseSpaceFixpoint(r);
    DropSpaceBeforePunctFixpoint(r);
    assert CleanUp(r) == r;
  }
}
